=== FILE: README.md ===
# Fastmail Bulk Manager — a Dafny model of the JMAP client core

Fastmail Bulk Manager is a browser tool that finds the bulk (junk) mailbox of a Fastmail
account, groups its recent messages by sender, and lets the user either move every
message of a sender into the bulk mailbox or create a Sieve filtering rule for that
sender. The tool talks JMAP (RFC 8620, RFC 8621) to the server.

This project models the decision and transformation logic of the client class
`FastmailBulkManager` and of the action layer. Every asynchronous method becomes a pure
function. It takes the client state and the already-decoded server responses as
parameters. It returns the result object, the client state afterwards (for the methods
that write it) and the list of request batches it issued. Each response is a `Result`:
either the decoded value, or the message of whatever was thrown while obtaining it.
Because the issued requests are part of the result of every client method and of
`executeMove` and `executeRule`, "no state-changing call" can be stated and proved. The
bulk move is the exception: it takes each sender's outcome as an input and issues nothing
itself.

| file | module | models |
|---|---|---|
| `wrappers.dfy` | `Wrappers` | `Option` / `Result` |
| `text.dfy` | `Text` | `toLowerCase` (ASCII), `includes`, decimal rendering of counts |
| `search.dfy` | `Search` | `Array.prototype.find` as an index |
| `jmap.dfy` | `Jmap` | invocations, result references (section 3.7 of RFC 8620), `/set` response fields, JavaScript truthiness and `\|\|` on them, client state |
| `mailboxes.dfy` | `Mailboxes` | `findSubscriptionsFolder` |
| `grouping.dfy` | `Grouping` | `scanBulkMessages`, `groupBySender` |
| `move.dfy` | `Move` | `moveMessagesFromSender` |
| `sieve.dfy` | `Sieve` | `createRule`, and quoted strings of RFC 5228 |
| `actions.dfy` | `Actions` | `executeMove`, `executeRule`, `executeBulkMove` |

What is proved, in the system's own terms:

- Folder resolution picks the first mailbox with role `junk`. Only when there is none
  does it pick the first mailbox whose name equals the wanted name ignoring case.
  `bulkFolderId` changes only on a match.
- Sender grouping is a partition of the fetched messages by exact `from[0].email`:
  - there is one group per distinct address;
  - each group holds exactly that address's messages, in server order;
  - `count` is the number of those messages, and the counts add up to the number of
    messages;
  - a group's name comes from the sender's first message;
  - the output is sorted by descending count, and equal counts keep first-seen order
    (`Array.prototype.sort` is stable).
  The proof is an invariant of the `forEach` fold, plus permutation, sortedness and
  stability lemmas for the sort, which is modelled as a stable insertion sort.
- A move issues no `Email/set` when nothing matches. Otherwise the update has exactly one
  entry per fetched id, and each entry's `mailboxIds` is exactly `{bulkFolderId: true}`.
  The counts come from the keys of `updated` and `notUpdated`. The summary text reads
  back to those counts and carries ` (N failed)` exactly when N > 0.
- The Sieve rule is always the header followed by a fixed block: an `address :is "from"`
  test, `fileinto "Bulk"` and `stop`. The address is pasted between quotes without the
  escaping of section 2.4.2 of RFC 5228:
  - an address free of `"` and `\` reads back unchanged;
  - an address whose first `"` has no `\` before it is cut at that quote;
  - the escaping function the template omits round-trips every string.
  The `SieveScript/set` call updates the active script when it has an id. Otherwise it
  creates an active script named after the active one, or `bulk-manager-rules` when there is
  none. A second rule overwrites the first.
- Preview mode issues no request at all. The bulk move records one entry per sender, in
  order. Its totals are sums over the senders:
  - a returned failure adds nothing;
  - a thrown error adds one error;
  - the totals do not depend on the order of the senders.

Where the description of the tool and its code differ, the model follows the code:

- The "existing rules" placeholder is chosen by the truthiness of the active script's
  `blobId`, not by the existence of an active script.
- Whether the script is updated or created is decided by the truthiness of its `id`. An
  active script without an id leads to a create that carries that script's name.
- A method-level error in answer to `Email/set` has no `updated` or `notUpdated`
  property, so the move reads it as a success with 0 moved and 0 failed. Only a
  transport-level throw becomes a failure.

## Model

| member | source | states |
|---|---|---|
| Mailboxes.MailboxBatch | js/fastmail-api.js:89-94 | the folder lookup is one well-formed `Mailbox/get` of the account's mailboxes with `id`, `name`, `parentId` and `role`, and changes nothing on the server |
| Mailboxes.SelectBulkFolder | js/fastmail-api.js:98-106 | a chosen mailbox is one of the listed mailboxes and has the `junk` role or the wanted name ignoring case |
| Mailboxes.FindSubscriptionsFolder | js/fastmail-api.js:87-117 | exactly the `Mailbox/get` request is issued, and nothing changes on the server; a folder is found iff the list arrived and some mailbox qualifies; the folder found is the one the two-stage search selects (first `junk`, else first name match); a match sets `bulkFolderId` to its id; every failure leaves the state unchanged and is either the thrown message or `Folder "<name>" not found` |
| Mailboxes.NoCandidate | js/fastmail-api.js:98-113 | the search fails only when no mailbox has the role and none has the name |
| Mailboxes.JunkRoleWins | js/fastmail-api.js:98-99 | the first `junk` mailbox is chosen regardless of names |
| Mailboxes.NameFallback | js/fastmail-api.js:101-106 | without a `junk` mailbox, the first case-insensitive name match is chosen |
| Text.Lower | js/fastmail-api.js:104 | lower-casing keeps the length and maps each character (ASCII only) |
| Text.EqualsIgnoreCasePointwise | js/fastmail-api.js:104 | two names match ignoring case iff they agree character by character after folding |
| Text.ContainsIffOccurs | js/fastmail-api.js:318 | `includes` holds iff the pattern occurs at some index |
| Text.NatToStringRoundTrip | js/fastmail-api.js:239 | a count rendered in a message reads back as the same number |
| Grouping.ScanBatch | js/fastmail-api.js:124-141 | the scan queries the account's bulk folder (`inMailbox: bulkFolderId`) for messages after the cutoff, then fetches `id`, `subject`, `from`, `receivedAt` and `mailboxIds` of exactly the query's `/ids` through a back-reference; well-formed and changing nothing |
| Grouping.ScanBulkMessages | js/fastmail-api.js:119-148 | exactly the scan request is issued, and nothing changes on the server; a transport failure is rethrown; a message without `from[0]` makes the scan fail; otherwise the result is the sender grouping of the fetched list |
| Grouping.GroupBySender | js/fastmail-api.js:150-175 | grouping succeeds iff every message has a first sender |
| Grouping.GroupIndex | js/fastmail-api.js:157 | the lookup of a sender's group finds the first group with that exact key, or none |
| Grouping.DisplayName | js/fastmail-api.js:155 | the group name is always either the sender's name or the address, and it is empty only when the address is |
| Grouping.CollectRepresents | js/fastmail-api.js:153-172 | the `forEach` keeps one faithful group per distinct address seen so far, in first-seen order, with counts summing to the messages seen |
| Grouping.SortPermutes | js/fastmail-api.js:174 | the sort is a permutation and keeps the total count |
| Grouping.SortSorted | js/fastmail-api.js:174 | the sort orders by descending count, and ties keep their original relative order |
| Grouping.SortKeepsDistinct | js/fastmail-api.js:174 | sorting keeps one group per address and the same set of addresses |
| Grouping.GroupBySenderCorrect | js/fastmail-api.js:150-175 | the output partitions the messages by exact address: distinct keys, exactly the addresses present, each group the sender's messages in order with `count` their number and the first message's name, counts summing to the input length, sorted by count then first appearance |
| Grouping.MessageInOwnGroup | js/fastmail-api.js:153-171 | every message appears in the group of its own address |
| Move.LookupBatch | js/fastmail-api.js:180-197 | the lookup queries the account for the sender's messages outside the bulk folder, and fetches `id` and `mailboxIds` of exactly the query's `/ids` through a back-reference; it changes nothing |
| Move.Retarget | js/fastmail-api.js:208-212 | a message's new `mailboxIds` holds exactly the bulk folder, set to true |
| Move.UpdatesFor | js/fastmail-api.js:206-217 | the update map has one key per fetched id and every patch is exactly `{bulkFolderId: true}` |
| Move.SetBatch | js/fastmail-api.js:220-225 | the move is a single state-changing `Email/set` in the account, carrying exactly the given `update` |
| Move.MoveMessagesFromSender | js/fastmail-api.js:177-245 | a lookup failure or an empty lookup issues no `Email/set` (the empty case returns 0 moved with no error count); otherwise exactly one `Email/set`, sent to the client's account, moves every fetched id into the bulk folder alone, `moved` counts `updated` keys and `errors` counts `notUpdated` keys (0 when absent), and a thrown failure passes its message through |
| Move.PlanMovesAllToBulk | js/fastmail-api.js:205-217 | once the update is applied, every fetched message is in the bulk folder and in no other |
| Move.RetargetIdempotent | js/fastmail-api.js:208-212 | retargeting an already-moved message changes nothing |
| Move.MovedMessageReadsBack | js/fastmail-api.js:239 | the summary starts with `Moved <moved> messages`, the number reads back, and a suffix follows iff the failed count is positive |
| Move.FailedCountReadsBack | js/fastmail-api.js:239 | with failures, the summary ends ` (<failed> failed)` and the number reads back |
| Sieve.ActiveScript | js/fastmail-api.js:256 | the active script is the first with `isActive`; there is none iff no script is active |
| Sieve.GetBatch | js/fastmail-api.js:250-254 | reading the scripts is one well-formed `SieveScript/get` in the account and changes nothing |
| Sieve.SetCall | js/fastmail-api.js:280-301 | the call is a `SieveScript/set` in the client's account; it is an update iff the active script has a truthy id, and then it sets only the source of that id; otherwise it creates `new-rule` as an active script with the given source, named after the active script or `bulk-manager-rules` |
| Sieve.MapErrorIdempotent | js/fastmail-api.js:316-324 | mapping an error message twice gives the same text as mapping it once, and the manual-setup advice maps to itself |
| Sieve.CreateRule | js/fastmail-api.js:247-326 | exactly one state-changing call is issued once the script list arrives, and its source is the header plus the rule block; success iff the `/set` result has a truthy `created` or `updated`; otherwise the error is the mapped rejection text or thrown message, and never mentions `SieveScript` unless it is the manual-setup advice |
| Sieve.SourceShape | js/fastmail-api.js:268-277 | the script contains the `address :is "from"` test naming the sender, `fileinto "Bulk";` and `stop;` |
| Sieve.QuoteRoundTrip | js/fastmail-api.js:270 | the escaping the template leaves out (section 2.4.2 of RFC 5228) makes every string read back as itself |
| Sieve.AddressReadsBack | js/fastmail-api.js:269-270 | an address without `"` or `\` reads back from the test's quoted string unchanged |
| Sieve.QuoteInAddressTruncates | js/fastmail-api.js:270 | an address whose first `"` has no `\` before it is cut at that quote, and the rest of the address spills into the script |
| Sieve.SourceIgnoresBlob | js/fastmail-api.js:257-266 | the script text depends on the active script's blob only through whether it is truthy |
| Sieve.SecondRuleReplacesFirst | js/fastmail-api.js:256-301 | the first rule creates an active `bulk-manager-rules` script; once it is listed, the next rule updates that id with the placeholder and the new rule only |
| Actions.ExecuteMove | js/actions.js:7-27 | in preview nothing is requested; otherwise exactly the move's requests are issued (the read-only rescan after a move is not modelled), and the status is the move's message (a warning iff errors > 0) or `Error: ` plus the error |
| Actions.ExecuteRule | js/actions.js:29-45 | in preview nothing is requested; otherwise exactly the rule's requests are issued, and the status is its success message or `Error: ` plus the error |
| Actions.ExecuteBulkMove | js/actions.js:47-66 | one entry per sender in input order (a throw recorded as a failure); totals equal the sums over the senders; the success count is the number of successful senders, at most the number of senders |
| Actions.SuccessesOfEntries | js/actions.js:66 | counting successful entries counts the senders whose call succeeded |
| Actions.SuccessCountAtMost | js/actions.js:66 | at most every sender succeeds, and all do iff every call returned a success |
| Actions.TotalsAdd | js/actions.js:52-64 | totals over consecutive runs add up, so earlier senders never change what later ones contribute |
| Actions.ReturnedFailureAddsNothing | js/actions.js:55-59 | a returned `{success: false}` adds to no total |
| Actions.ThrownAddsOneError | js/actions.js:60-63 | a thrown error adds exactly one error and nothing else |
| Actions.TotalsPermute | js/actions.js:52-64 | any reordering of the senders (same multiset of runs) gives the same three totals |
| Jmap.Or | js/fastmail-api.js:313 | `a \|\| b` returns one of its operands, and is truthy exactly when either operand is |
| Jmap.PropertyKeysCollide | js/fastmail-api.js:212 | two folder ids write the same object key iff they are equal or one is `null` and the other is the id `"null"` |

## Left out

- `connect` and `makeJMAPCall` are not modelled (js/fastmail-api.js:24-85, 328-348): HTTP requests, Base64 credentials read from the page, JSON parsing and the session document are browser and network I/O. A failed call, a non-OK status, or a missing `methodResponses` entry or `list` appears as the `Failure` message passed to the model. A missing `/set` field such as `updated` is not a failure: it is the `Absent` value of that field.
- The scan cutoff (js/fastmail-api.js:121-122) is wall-clock arithmetic. `Grouping.ScanBatch` takes the ISO date text as a parameter.
- Filtering by date, by `from` and by `notInMailbox` happens on the server. The model only builds the filters.
- `console.warn` (js/fastmail-api.js:232) only logs.
- js/ui.js, js/main.js and js/toolkit.js (DOM rendering, event wiring, the global registry) are not part of this model. This includes the bulk-action preview check in js/ui.js.
- The status toasts are kept as returned values. Not modelled: the rescan after a move (js/actions.js:18-20) and the final bulk summary string (js/actions.js:67-68, which is cut off in the file).
- Text.Lower: lower-cases ASCII `A`-`Z` only, where `toLowerCase` applies full Unicode case mapping.
- Grouping.GroupBySender: groups are listed in first-seen order before the sort. `Object.values` puts keys that look like array indices first, which real addresses never do. A key inherited from `Object.prototype` (an address such as `constructor`) makes the source throw, and is not modelled.
- Actions.ExecuteBulkMove: takes each sender's outcome as an input rather than computing it by calling `Move.MoveMessagesFromSender`.
- Mailboxes.FindSubscriptionsFolder: mailbox names are strings, so the `TypeError` from a `null` name is not modelled.
- Sieve.CreateRule: a `null` script `id` or `blobId` is modelled as the empty string, since the code only tests truthiness. The `JSON.stringify` text of `notCreated`/`notUpdated` is supplied with the response instead of being computed.
- Sieve.SourceShape: does not state that the script lacks `require "fileinto";` (section 4.1 of RFC 5228). The omission shows in the template text, but proving where the first command starts means reasoning character by character over long literals, which is too costly for the solver.
- Errors thrown that are not `Error` objects (no `message`) are not modelled.

=== FILE: actions.dfy ===
/** The action layer (`executeMove`, `executeRule`, `executeBulkMove`): preview guards in
    front of the client calls, what each action reports, and the per-sender fold of a bulk
    move. */
module Actions {
  import opened Wrappers
  import opened Jmap
  import opened Move
  import opened Sieve

  /** The kind of a status toast. */
  datatype StatusKind = InfoStatus | SuccessStatus | WarningStatus | ErrorStatus

  datatype Status = Status(text: string, kind: StatusKind)

  /** What a single action does: the status it shows and every request issued on its
      behalf. */
  datatype ActionRun = ActionRun(status: Status, requests: seq<Batch>)

  /** `executeMove(sender)`; `preview` is the global preview flag, and the two responses are
      what the client call would receive. */
  function ExecuteMove(preview: bool, state: ClientState, sender: string,
                       lookup: Result<seq<EmailRef>, string>,
                       response: Result<SetResponse, string>): (run: ActionRun)
    ensures preview ==> run.requests == [] && run.status.kind == InfoStatus
    ensures MutationCount(run.requests) > 0 ==> !preview
    ensures !preview ==> run.requests == MoveMessagesFromSender(state, sender, lookup, response).requests
    ensures !preview ==>
      var result := MoveMessagesFromSender(state, sender, lookup, response).result;
      && (result.MoveFailed? ==> run.status == Status("Error: " + result.error, ErrorStatus))
      && (result.Moved? ==> run.status.text == result.message)
      && (result.Moved? ==> (run.status.kind == WarningStatus <==> result.errors.GetOr(0) > 0))
      && (result.Moved? ==> (run.status.kind == SuccessStatus <==> result.errors.GetOr(0) == 0))
  {
    if preview then
      ActionRun(Status("Preview: Would move all messages from " + sender + " to bulk folder", InfoStatus), [])
    else
      var move := MoveMessagesFromSender(state, sender, lookup, response);
      match move.result
      case Moved(moved, errors, message) =>
        var text := if message != "" then message
                    else "Moved " + Text.NatToString(moved) + " messages from " + sender + " to bulk folder";
        ActionRun(Status(text, if errors.GetOr(0) > 0 then WarningStatus else SuccessStatus), move.requests)
      case MoveFailed(error) =>
        ActionRun(Status("Error: " + error, ErrorStatus), move.requests)
  }

  /** `executeRule(sender)`, in the same terms. */
  function ExecuteRule(preview: bool, state: ClientState, sender: string,
                       scripts: Result<seq<SieveScript>, string>,
                       response: Result<SetResponse, string>): (run: ActionRun)
    ensures preview ==> run.requests == [] && run.status.kind == InfoStatus
    ensures MutationCount(run.requests) > 0 ==> !preview
    ensures !preview ==> run.requests == CreateRule(state, sender, scripts, response).requests
    ensures !preview ==>
      var result := CreateRule(state, sender, scripts, response).result;
      && (result.RuleFailed? ==> run.status == Status("Error: " + result.error, ErrorStatus))
      && (result.RuleCreated? ==> run.status == Status(result.message, SuccessStatus))
  {
    if preview then
      ActionRun(Status("Preview: Would create rule to automatically move messages from " + sender + " to bulk", InfoStatus), [])
    else
      var rule := CreateRule(state, sender, scripts, response);
      match rule.result
      case RuleCreated(message) =>
        var text := if message != "" then message
                    else "Created rule to automatically move messages from " + sender + " to bulk";
        ActionRun(Status(text, SuccessStatus), rule.requests)
      case RuleFailed(error) =>
        ActionRun(Status("Error: " + error, ErrorStatus), rule.requests)
  }

  // ---------------------------------------------------------------------------
  // Bulk move

  /** How the call for one sender ended: with a result, or by throwing. */
  datatype SenderOutcome = Returned(result: MoveResult) | Threw(message: string)

  datatype SenderRun = SenderRun(sender: string, outcome: SenderOutcome)

  /** One `{sender, result}` entry of `results`. */
  datatype BulkEntry = BulkEntry(sender: string, result: MoveResult)

  datatype BulkReport = BulkReport(results: seq<BulkEntry>, totalMoved: nat, totalErrors: nat, successCount: nat)

  /** The entry recorded for a sender: a thrown error becomes `{success: false, error}`. */
  function EntryOf(r: SenderRun): BulkEntry {
    match r.outcome
    case Returned(result) => BulkEntry(r.sender, result)
    case Threw(message) => BulkEntry(r.sender, MoveFailed(message))
  }

  /** What one sender adds to `totalMoved`: its `moved`, if it succeeded. */
  function MovedBy(o: SenderOutcome): nat {
    match o
    case Returned(Moved(moved, _, _)) => moved
    case Returned(MoveFailed(_)) => 0
    case Threw(_) => 0
  }

  /** What one sender adds to `totalErrors`: its `errors` (absent counts 0) if it succeeded,
      one if it threw, nothing if it returned a failure. */
  function ErrorsBy(o: SenderOutcome): nat {
    match o
    case Returned(Moved(_, errors, _)) => errors.GetOr(0)
    case Returned(MoveFailed(_)) => 0
    case Threw(_) => 1
  }

  predicate Succeeded(o: SenderOutcome) {
    o.Returned? && o.result.Moved?
  }

  function TotalMoved(runs: seq<SenderRun>): nat {
    if |runs| == 0 then 0 else TotalMoved(runs[..|runs| - 1]) + MovedBy(runs[|runs| - 1].outcome)
  }

  function TotalErrors(runs: seq<SenderRun>): nat {
    if |runs| == 0 then 0 else TotalErrors(runs[..|runs| - 1]) + ErrorsBy(runs[|runs| - 1].outcome)
  }

  function SuccessCount(runs: seq<SenderRun>): nat {
    if |runs| == 0 then 0 else SuccessCount(runs[..|runs| - 1]) + (if Succeeded(runs[|runs| - 1].outcome) then 1 else 0)
  }

  /** Number of entries whose result is a success: `results.filter(r => r.result.success).length`. */
  function Successes(results: seq<BulkEntry>): nat {
    if |results| == 0 then 0 else Successes(results[..|results| - 1]) + (if results[|results| - 1].result.Moved? then 1 else 0)
  }

  /** `executeBulkMove(senders)` given how each sender's call ended. Every sender is
      processed, in order, whatever happened to the ones before it. */
  method ExecuteBulkMove(runs: seq<SenderRun>) returns (report: BulkReport)
    ensures |report.results| == |runs|
    ensures forall i :: 0 <= i < |runs| ==> report.results[i] == EntryOf(runs[i])
    ensures report.totalMoved == TotalMoved(runs)
    ensures report.totalErrors == TotalErrors(runs)
    ensures report.successCount == SuccessCount(runs) <= |runs|
  {
    var results: seq<BulkEntry> := [];
    var totalMoved: nat := 0;
    var totalErrors: nat := 0;
    var i := 0;
    while i < |runs|
      invariant i <= |runs|
      invariant |results| == i
      invariant forall j :: 0 <= j < i ==> results[j] == EntryOf(runs[j])
      invariant totalMoved == TotalMoved(runs[..i])
      invariant totalErrors == TotalErrors(runs[..i])
    {
      var run := runs[i];
      match run.outcome {
        case Returned(result) =>
          results := results + [BulkEntry(run.sender, result)];
          if result.Moved? {
            totalMoved := totalMoved + result.moved;
            totalErrors := totalErrors + result.errors.GetOr(0);
          }
        case Threw(message) =>
          results := results + [BulkEntry(run.sender, MoveFailed(message))];
          totalErrors := totalErrors + 1;
      }
      assert runs[..i + 1][..i] == runs[..i];
      i := i + 1;
    }
    assert runs[..i] == runs;
    var successCount := 0;
    var k := 0;
    while k < |results|
      invariant k <= |results|
      invariant successCount == Successes(results[..k])
    {
      if results[k].result.Moved? {
        successCount := successCount + 1;
      }
      assert results[..k + 1][..k] == results[..k];
      k := k + 1;
    }
    assert results[..k] == results;
    SuccessesOfEntries(runs, results);
    SuccessCountAtMost(runs);
    report := BulkReport(results, totalMoved, totalErrors, successCount);
  }

  // ---------------------------------------------------------------------------
  // Properties of the fold

  /** Counting successes over the recorded entries counts the senders that succeeded. */
  lemma {:induction false} SuccessesOfEntries(runs: seq<SenderRun>, results: seq<BulkEntry>)
    requires |results| == |runs|
    requires forall j :: 0 <= j < |runs| ==> results[j] == EntryOf(runs[j])
    ensures Successes(results) == SuccessCount(runs)
    decreases |runs|
  {
    if |runs| > 0 {
      var n := |runs| - 1;
      SuccessesOfEntries(runs[..n], results[..n]);
      assert results[n] == EntryOf(runs[n]);
    }
  }

  /** At most every sender succeeds, and all do exactly when each call returned a
      success. */
  lemma {:induction false} SuccessCountAtMost(runs: seq<SenderRun>)
    ensures SuccessCount(runs) <= |runs|
    ensures SuccessCount(runs) == |runs| <==> forall j :: 0 <= j < |runs| ==> Succeeded(runs[j].outcome)
    decreases |runs|
  {
    if |runs| > 0 {
      var n := |runs| - 1;
      SuccessCountAtMost(runs[..n]);
      assert forall j :: 0 <= j < n ==> runs[..n][j] == runs[j];
    }
  }

  /** The totals of a run split in two are the sums of the totals of its parts: what
      happened to the earlier senders does not change what the later ones contribute. */
  lemma {:induction false} TotalsAdd(a: seq<SenderRun>, b: seq<SenderRun>)
    ensures TotalMoved(a + b) == TotalMoved(a) + TotalMoved(b)
    ensures TotalErrors(a + b) == TotalErrors(a) + TotalErrors(b)
    ensures SuccessCount(a + b) == SuccessCount(a) + SuccessCount(b)
    decreases |b|
  {
    if |b| == 0 {
      assert a + b == a;
    } else {
      var n := |b| - 1;
      TotalsAdd(a, b[..n]);
      assert (a + b)[..|a + b| - 1] == a + b[..n];
    }
  }

  /** A sender whose call returned `{success: false}` adds nothing to any total. */
  lemma {:induction false} ReturnedFailureAddsNothing(runs: seq<SenderRun>, sender: string, error: string)
    ensures var more := runs + [SenderRun(sender, Returned(MoveFailed(error)))];
            && TotalMoved(more) == TotalMoved(runs)
            && TotalErrors(more) == TotalErrors(runs)
            && SuccessCount(more) == SuccessCount(runs)
  {
    var more := runs + [SenderRun(sender, Returned(MoveFailed(error)))];
    assert more[..|more| - 1] == runs;
  }

  /** A sender whose call threw adds exactly one error and nothing else. */
  lemma {:induction false} ThrownAddsOneError(runs: seq<SenderRun>, sender: string, message: string)
    ensures var more := runs + [SenderRun(sender, Threw(message))];
            && TotalMoved(more) == TotalMoved(runs)
            && TotalErrors(more) == TotalErrors(runs) + 1
            && SuccessCount(more) == SuccessCount(runs)
  {
    var more := runs + [SenderRun(sender, Threw(message))];
    assert more[..|more| - 1] == runs;
  }

  /** Taking one run out of a sequence takes out exactly what that run contributed. */
  lemma {:induction false} TotalsRemove(b: seq<SenderRun>, k: nat)
    requires k < |b|
    ensures TotalMoved(b) == TotalMoved(b[..k] + b[k + 1..]) + MovedBy(b[k].outcome)
    ensures TotalErrors(b) == TotalErrors(b[..k] + b[k + 1..]) + ErrorsBy(b[k].outcome)
    ensures SuccessCount(b) == SuccessCount(b[..k] + b[k + 1..]) + (if Succeeded(b[k].outcome) then 1 else 0)
  {
    var front, x, back := b[..k], b[k], b[k + 1..];
    assert b == front + [x] + back;
    assert [x][..0] == [];
    TotalsAdd(front + [x], back);
    TotalsAdd(front, [x]);
    TotalsAdd(front, back);
  }

  /** Removing the same run from two permutations of each other leaves permutations. */
  lemma {:induction false} RemoveKeepsPermutation(a: seq<SenderRun>, b: seq<SenderRun>, k: nat)
    requires multiset(a) == multiset(b) && |a| > 0
    requires k < |b| && b[k] == a[|a| - 1]
    ensures multiset(a[..|a| - 1]) == multiset(b[..k] + b[k + 1..])
  {
    var n, x := |a| - 1, a[|a| - 1];
    var front, back := b[..k], b[k + 1..];
    assert a == a[..n] + [x];
    assert b == front + [x] + back;
    calc {
      multiset(a[..n]) + multiset{x};
      multiset(a);
      multiset(b);
      multiset(front) + multiset{x} + multiset(back);
      multiset(front + back) + multiset{x};
    }
    assert multiset(a[..n]) == (multiset(a[..n]) + multiset{x}) - multiset{x};
    assert multiset(front + back) == (multiset(front + back) + multiset{x}) - multiset{x};
  }

  /** Any reordering of the senders gives the same totals. */
  lemma {:induction false} TotalsPermute(a: seq<SenderRun>, b: seq<SenderRun>)
    requires multiset(a) == multiset(b)
    ensures TotalMoved(a) == TotalMoved(b)
    ensures TotalErrors(a) == TotalErrors(b)
    ensures SuccessCount(a) == SuccessCount(b)
    decreases |a|
  {
    if |a| == 0 {
      assert |b| == |multiset(b)| == 0;
    } else {
      var n := |a| - 1;
      assert a[n] in multiset(a);
      var k :| 0 <= k < |b| && b[k] == a[n];
      RemoveKeepsPermutation(a, b, k);
      TotalsPermute(a[..n], b[..k] + b[k + 1..]);
      TotalsRemove(b, k);
    }
  }
}

=== FILE: grouping.dfy ===
/** Scanning the bulk folder and grouping its messages by sender (`scanBulkMessages`,
    `groupBySender`): a fold that files each message under the exact address of its first
    `from` entry, followed by a stable sort by descending count. */
module Grouping {
  import opened Wrappers
  import opened Jmap
  import Search

  /** An `EmailAddress` object (section 4.1.2.3 of RFC 8621); `name` may be `null`. */
  datatype EmailAddress = EmailAddress(name: Option<string>, email: string)

  /** The properties fetched for each message of the scan. A `null` `from` is modelled as
      the empty sequence: both make `from[0].email` throw. */
  datatype Email = Email(id: Id, subject: string, from: seq<EmailAddress>, receivedAt: string, mailboxIds: map<Id, bool>)

  /** What a group keeps of each message. */
  datatype MessageSummary = MessageSummary(id: Id, subject: string, receivedAt: string)

  datatype SenderGroup = SenderGroup(email: string, name: string, messages: seq<MessageSummary>, count: nat)

  datatype ScanError = Transport(message: string) | MissingSender

  predicate HasSender(e: Email) {
    |e.from| > 0
  }

  predicate AllHaveSender(es: seq<Email>) {
    forall i :: 0 <= i < |es| ==> HasSender(es[i])
  }

  /** The grouping key: `from[0].email`, compared exactly (no case folding). */
  function Sender(e: Email): string
    requires HasSender(e)
  {
    e.from[0].email
  }

  /** `from[0].name || from[0].email` */
  function DisplayName(a: EmailAddress): (n: string)
    ensures a.name.Some? && a.name.value != "" ==> n == a.name.value
    ensures a.name.None? || a.name == Some("") ==> n == a.email
    ensures n == a.email || a.name == Some(n)
    ensures n == "" ==> a.email == ""
  {
    match a.name
    case Some(n) => if n == "" then a.email else n
    case None => a.email
  }

  function Summary(e: Email): MessageSummary {
    MessageSummary(e.id, e.subject, e.receivedAt)
  }

  // ---------------------------------------------------------------------------
  // The fold, as the source performs it

  /** Position of the group keyed `k`, or `|gs|`: the `senderGroups[fromEmail]` lookup,
      with the groups kept in insertion order. */
  function GroupIndex(gs: seq<SenderGroup>, k: string): (i: nat)
    ensures i <= |gs|
    ensures i < |gs| ==> gs[i].email == k
    ensures forall j :: 0 <= j < i ==> gs[j].email != k
  {
    Search.FindIndex(gs, (g: SenderGroup) => g.email == k)
  }

  /** One step of the `forEach`: append to the sender's group, or open a new group (named
      after this message's sender) at the end of the insertion order. */
  function AddEmail(gs: seq<SenderGroup>, e: Email): seq<SenderGroup>
    requires HasSender(e)
  {
    var i := GroupIndex(gs, Sender(e));
    if i < |gs| then gs[i := ExtendGroup(gs[i], e)] else gs + [NewGroup(e)]
  }

  /** `messages.push(...)` and `count++` on an existing group. */
  function ExtendGroup(g: SenderGroup, e: Email): SenderGroup {
    g.(messages := g.messages + [Summary(e)], count := g.count + 1)
  }

  /** The group created for the first message of a sender. */
  function NewGroup(e: Email): SenderGroup
    requires HasSender(e)
  {
    SenderGroup(Sender(e), DisplayName(e.from[0]), [Summary(e)], 1)
  }

  /** The `forEach` over the fetched messages, from the front. */
  function Collect(gs: seq<SenderGroup>, es: seq<Email>): seq<SenderGroup>
    requires AllHaveSender(es)
    decreases |es|
  {
    if |es| == 0 then gs else Collect(AddEmail(gs, es[0]), es[1..])
  }

  /** `Array.prototype.sort` with comparator `b.count - a.count`: stable, non-increasing. */
  function SortByCount(gs: seq<SenderGroup>): seq<SenderGroup> {
    if |gs| == 0 then [] else Insert(gs[0], SortByCount(gs[1..]))
  }

  /** Puts `g` after every group with a larger count and before the rest. */
  function Insert(g: SenderGroup, s: seq<SenderGroup>): seq<SenderGroup> {
    if |s| == 0 || g.count >= s[0].count then [g] + s else [s[0]] + Insert(g, s[1..])
  }

  /** `groupBySender(emails)`; `None` when some message has no `from[0]`, where the source
      throws a `TypeError`. */
  function GroupBySender(es: seq<Email>): (r: Option<seq<SenderGroup>>)
    ensures r.Some? <==> AllHaveSender(es)
  {
    if AllHaveSender(es) then Some(SortByCount(Collect([], es))) else None
  }

  /** The scan request: query the bulk folder after the cutoff, then fetch exactly the ids
      the query returns, through a back-reference rather than a second round trip. */
  function ScanBatch(state: ClientState, after: string): (b: Batch)
    ensures |b| == 2 && WellFormedBatch(b) && CountMutations(b) == 0
    ensures b[0].name == "Email/query"
    ensures b[0].arguments == EmailQuery(state.accountId, InMailboxAfter(state.bulkFolderId, after))
    ensures b[1].name == "Email/get"
    ensures b[1].arguments == EmailGet(state.accountId, ResultReference(b[0].callId, "Email/query", "/ids"),
                                       ["id", "subject", "from", "receivedAt", "mailboxIds"])
  {
    var b := [
      Invocation("Email/query", EmailQuery(state.accountId, InMailboxAfter(state.bulkFolderId, after)), "0"),
      Invocation("Email/get", EmailGet(state.accountId, ResultReference("0", "Email/query", "/ids"),
                                       ["id", "subject", "from", "receivedAt", "mailboxIds"]), "1")
    ];
    assert b[1].arguments.EmailGet? ==> ResolvesEarlier(b, 1, b[1].arguments.ids) by {
      assert b[0].callId == "0" && b[0].name == "Email/query";
    }
    assert CountMutations(b[..1]) == 0 by { assert b[..1][..0] == []; }
    b
  }

  /** What a scan resolves to, together with every request it issued. */
  datatype ScanRun = ScanRun(result: Result<seq<SenderGroup>, ScanError>, requests: seq<Batch>)

  /** `scanBulkMessages` given the `Email/get` list (or the thrown message); the cutoff
      `after` is computed by the caller from the clock. */
  function ScanBulkMessages(state: ClientState, after: string, response: Result<seq<Email>, string>): (run: ScanRun)
    ensures run.requests == [ScanBatch(state, after)] && MutationCount(run.requests) == 0
    ensures response.Failure? ==> run.result == Failure(Transport(response.error))
    ensures response.Success? && AllHaveSender(response.value) ==>
      run.result.Success? && Groups(run.result.value, response.value)
    ensures response.Success? && !AllHaveSender(response.value) ==> run.result == Failure(MissingSender)
  {
    var requests := [ScanBatch(state, after)];
    assert requests[..0] == [];
    match response
    case Failure(message) => ScanRun(Failure(Transport(message)), requests)
    case Success(es) =>
      match GroupBySender(es)
      case Some(gs) => GroupBySenderCorrect(es); ScanRun(Success(gs), requests)
      case None => ScanRun(Failure(MissingSender), requests)
  }

  // ---------------------------------------------------------------------------
  // Reference definitions

  /** The grouping key of every message, in order. */
  function Senders(es: seq<Email>): (ks: seq<string>)
    requires AllHaveSender(es)
    ensures |ks| == |es|
    ensures forall i :: 0 <= i < |es| ==> ks[i] == Sender(es[i])
  {
    if |es| == 0 then [] else Senders(es[..|es| - 1]) + [Sender(es[|es| - 1])]
  }

  /** Position of the first occurrence of `k`, or `|ks|`. */
  function FirstIndex(ks: seq<string>, k: string): (i: nat)
    ensures i <= |ks|
    ensures i < |ks| ==> ks[i] == k
    ensures forall j :: 0 <= j < i ==> ks[j] != k
  {
    if |ks| == 0 then 0
    else
      var i := FirstIndex(ks[..|ks| - 1], k);
      if i < |ks| - 1 then i else if ks[|ks| - 1] == k then |ks| - 1 else |ks|
  }

  /** The summaries of the messages from `k`, in input order. */
  function SentBy(es: seq<Email>, k: string): seq<MessageSummary>
    requires AllHaveSender(es)
  {
    if |es| == 0 then []
    else SentBy(es[..|es| - 1], k) + (if Sender(es[|es| - 1]) == k then [Summary(es[|es| - 1])] else [])
  }

  function KeysOf(gs: seq<SenderGroup>): set<string> {
    set g | g in gs :: g.email
  }

  function SumCounts(gs: seq<SenderGroup>): nat {
    if |gs| == 0 then 0 else gs[0].count + SumCounts(gs[1..])
  }

  ghost predicate DistinctKeys(gs: seq<SenderGroup>) {
    forall i, j :: 0 <= i < j < |gs| ==> gs[i].email != gs[j].email
  }

  /** `g` is exactly the group of its sender: all of that sender's messages in input
      order, their number, and the display name of the sender's first message. */
  ghost predicate Faithful(g: SenderGroup, es: seq<Email>)
    requires AllHaveSender(es)
  {
    var first := FirstIndex(Senders(es), g.email);
    && g.messages == SentBy(es, g.email)
    && g.count == |g.messages| >= 1
    && first < |es|
    && g.name == DisplayName(es[first].from[0])
  }

  /** Non-increasing by count; equal counts keep the order of the senders' first
      messages. */
  ghost predicate CountThenFirstSeen(gs: seq<SenderGroup>, es: seq<Email>)
    requires AllHaveSender(es)
  {
    forall i, j :: 0 <= i < j < |gs| ==>
      gs[i].count > gs[j].count ||
      (gs[i].count == gs[j].count && FirstIndex(Senders(es), gs[i].email) < FirstIndex(Senders(es), gs[j].email))
  }

  /** Everything the grouping promises about its output. */
  ghost predicate Groups(gs: seq<SenderGroup>, es: seq<Email>)
    requires AllHaveSender(es)
  {
    && DistinctKeys(gs)
    && KeysOf(gs) == (set k | k in Senders(es))
    && (forall g :: g in gs ==> Faithful(g, es))
    && SumCounts(gs) == |es|
    && CountThenFirstSeen(gs, es)
  }

  /** The state the fold keeps after a prefix of the messages: as `Groups`, but in
      first-seen order. */
  ghost predicate Represents(gs: seq<SenderGroup>, es: seq<Email>)
    requires AllHaveSender(es)
  {
    && DistinctKeys(gs)
    && KeysOf(gs) == (set k | k in Senders(es))
    && AllFaithful(gs, es)
    && SumCounts(gs) == |es|
    && FirstSeenOrder(gs, es)
  }

  ghost predicate AllFaithful(gs: seq<SenderGroup>, es: seq<Email>)
    requires AllHaveSender(es)
  {
    forall i :: 0 <= i < |gs| ==> Faithful(gs[i], es)
  }

  ghost predicate FirstSeenOrder(gs: seq<SenderGroup>, es: seq<Email>)
    requires AllHaveSender(es)
  {
    forall i, j :: 0 <= i < j < |gs| ==> FirstIndex(Senders(es), gs[i].email) < FirstIndex(Senders(es), gs[j].email)
  }

  // ---------------------------------------------------------------------------
  // Proof that the fold builds the groups

  lemma {:induction false} SumCountsAppend(gs: seq<SenderGroup>, g: SenderGroup)
    ensures SumCounts(gs + [g]) == SumCounts(gs) + g.count
    decreases |gs|
  {
    if |gs| > 0 {
      assert (gs + [g])[1..] == gs[1..] + [g];
      SumCountsAppend(gs[1..], g);
    }
  }

  lemma {:induction false} SumCountsUpdate(gs: seq<SenderGroup>, i: nat, g: SenderGroup)
    requires i < |gs|
    ensures SumCounts(gs[i := g]) == SumCounts(gs) - gs[i].count + g.count
    decreases |gs|
  {
    if i > 0 {
      assert gs[i := g][1..] == gs[1..][i - 1 := g];
      SumCountsUpdate(gs[1..], i - 1, g);
    }
  }

  lemma {:induction false} SentByAbsent(es: seq<Email>, k: string)
    requires AllHaveSender(es)
    requires k !in Senders(es)
    ensures SentBy(es, k) == []
    decreases |es|
  {
    if |es| > 0 {
      var p := es[..|es| - 1];
      assert Senders(p) == Senders(es)[..|es| - 1];
      SentByAbsent(p, k);
    }
  }

  /** What one more message changes in the reference definitions. */
  lemma {:induction false} ExtendSenders(p: seq<Email>, e: Email)
    requires AllHaveSender(p) && HasSender(e)
    ensures AllHaveSender(p + [e])
    ensures Senders(p + [e]) == Senders(p) + [Sender(e)]
  {
    var es := p + [e];
    assert es[..|es| - 1] == p;
  }

  lemma {:induction false} ExtendSentBy(p: seq<Email>, e: Email, k: string)
    requires AllHaveSender(p) && HasSender(e)
    ensures AllHaveSender(p + [e])
    ensures SentBy(p + [e], k) == SentBy(p, k) + (if Sender(e) == k then [Summary(e)] else [])
  {
    var es := p + [e];
    assert es[..|es| - 1] == p;
  }

  lemma {:induction false} ExtendFirstIndex(ks: seq<string>, s: string, k: string)
    ensures k in ks ==> FirstIndex(ks + [s], k) == FirstIndex(ks, k)
    ensures k !in ks && s == k ==> FirstIndex(ks + [s], k) == |ks|
  {
    assert (ks + [s])[..|ks|] == ks;
    if k in ks {
      assert FirstIndex(ks, k) < |ks|;
    }
  }

  lemma {:induction false} ExtendKeySet(p: seq<Email>, e: Email)
    requires AllHaveSender(p) && HasSender(e)
    ensures AllHaveSender(p + [e])
    ensures (set k | k in Senders(p + [e])) == (set k | k in Senders(p)) + {Sender(e)}
  {
    ExtendSenders(p, e);
  }

  /** A group of another sender is unaffected by the extra message. */
  lemma {:induction false} OtherGroupFaithful(g: SenderGroup, p: seq<Email>, e: Email)
    requires AllHaveSender(p) && HasSender(e)
    requires Faithful(g, p) && g.email != Sender(e)
    ensures AllHaveSender(p + [e])
    ensures Faithful(g, p + [e])
  {
    ExtendSenders(p, e);
    ExtendSentBy(p, e, g.email);
    ExtendFirstIndex(Senders(p), Sender(e), g.email);
  }

  /** The sender's own group, extended by the extra message. */
  lemma {:induction false} ExtendedGroupFaithful(g: SenderGroup, p: seq<Email>, e: Email)
    requires AllHaveSender(p) && HasSender(e)
    requires Faithful(g, p) && g.email == Sender(e)
    ensures AllHaveSender(p + [e])
    ensures Faithful(ExtendGroup(g, e), p + [e])
  {
    ExtendSenders(p, e);
    ExtendSentBy(p, e, g.email);
    ExtendFirstIndex(Senders(p), Sender(e), g.email);
  }

  /** The group opened for a new sender. */
  lemma {:induction false} NewGroupFaithful(p: seq<Email>, e: Email)
    requires AllHaveSender(p) && HasSender(e)
    requires Sender(e) !in Senders(p)
    ensures AllHaveSender(p + [e])
    ensures Faithful(NewGroup(e), p + [e])
  {
    ExtendSenders(p, e);
    ExtendSentBy(p, e, Sender(e));
    ExtendFirstIndex(Senders(p), Sender(e), Sender(e));
    SentByAbsent(p, Sender(e));
  }

  /** Keys of a group sequence are the emails at its indices. */
  lemma {:induction false} KeysOfIndex(gs: seq<SenderGroup>, k: string)
    ensures k in KeysOf(gs) <==> GroupIndex(gs, k) < |gs|
  {
    if k in KeysOf(gs) {
      var g :| g in gs && g.email == k;
      var j :| 0 <= j < |gs| && gs[j] == g;
      assert GroupIndex(gs, k) <= j;
    }
  }

  /** The updated group list of a message whose sender already has a group. */
  lemma {:induction false} ExistingFaithful(gs: seq<SenderGroup>, p: seq<Email>, e: Email)
    requires AllHaveSender(p) && HasSender(e)
    requires AllFaithful(gs, p) && DistinctKeys(gs)
    requires GroupIndex(gs, Sender(e)) < |gs|
    ensures AllHaveSender(p + [e])
    ensures AllFaithful(gs[GroupIndex(gs, Sender(e)) := ExtendGroup(gs[GroupIndex(gs, Sender(e))], e)], p + [e])
  {
    ExtendSenders(p, e);
    var i := GroupIndex(gs, Sender(e));
    var gs' := gs[i := ExtendGroup(gs[i], e)];
    forall j | 0 <= j < |gs'| ensures Faithful(gs'[j], p + [e]) {
      if j == i {
        ExtendedGroupFaithful(gs[i], p, e);
      } else {
        assert gs[j].email != gs[i].email;
        OtherGroupFaithful(gs[j], p, e);
      }
    }
  }

  lemma {:induction false} ExistingOrder(gs: seq<SenderGroup>, p: seq<Email>, e: Email)
    requires AllHaveSender(p) && HasSender(e)
    requires FirstSeenOrder(gs, p)
    requires KeysOf(gs) == (set k | k in Senders(p))
    requires GroupIndex(gs, Sender(e)) < |gs|
    ensures AllHaveSender(p + [e])
    ensures FirstSeenOrder(gs[GroupIndex(gs, Sender(e)) := ExtendGroup(gs[GroupIndex(gs, Sender(e))], e)], p + [e])
  {
    ExtendSenders(p, e);
    var k := Sender(e);
    var i := GroupIndex(gs, k);
    var gs' := gs[i := ExtendGroup(gs[i], e)];
    forall j, l | 0 <= j < l < |gs'|
      ensures FirstIndex(Senders(p + [e]), gs'[j].email) < FirstIndex(Senders(p + [e]), gs'[l].email)
    {
      assert gs'[j].email == gs[j].email && gs'[l].email == gs[l].email;
      assert gs[j].email in KeysOf(gs) && gs[l].email in KeysOf(gs);
      ExtendFirstIndex(Senders(p), k, gs[j].email);
      ExtendFirstIndex(Senders(p), k, gs[l].email);
    }
  }

  lemma {:induction false} ExistingKeys(gs: seq<SenderGroup>, e: Email)
    requires HasSender(e)
    requires DistinctKeys(gs)
    requires GroupIndex(gs, Sender(e)) < |gs|
    ensures DistinctKeys(gs[GroupIndex(gs, Sender(e)) := ExtendGroup(gs[GroupIndex(gs, Sender(e))], e)])
    ensures KeysOf(gs[GroupIndex(gs, Sender(e)) := ExtendGroup(gs[GroupIndex(gs, Sender(e))], e)]) == KeysOf(gs)
    ensures SumCounts(gs[GroupIndex(gs, Sender(e)) := ExtendGroup(gs[GroupIndex(gs, Sender(e))], e)]) == SumCounts(gs) + 1
  {
    var i := GroupIndex(gs, Sender(e));
    var g' := ExtendGroup(gs[i], e);
    var gs' := gs[i := g'];
    SumCountsUpdate(gs, i, g');
    assert forall j :: 0 <= j < |gs| ==> gs'[j].email == gs[j].email;
    forall x | x in KeysOf(gs) ensures x in KeysOf(gs') {
      KeysOfIndex(gs, x);
      assert gs'[GroupIndex(gs, x)].email == x;
    }
  }

  /** A message from a sender that already has a group extends that group. */
  lemma {:induction false} AddToExisting(gs: seq<SenderGroup>, p: seq<Email>, e: Email)
    requires AllHaveSender(p) && HasSender(e)
    requires Represents(gs, p)
    requires GroupIndex(gs, Sender(e)) < |gs|
    ensures AllHaveSender(p + [e])
    ensures Represents(AddEmail(gs, e), p + [e])
  {
    var k := Sender(e);
    var i := GroupIndex(gs, k);
    var gs' := gs[i := ExtendGroup(gs[i], e)];
    assert AddEmail(gs, e) == gs';
    ExtendKeySet(p, e);
    KeysOfIndex(gs, k);
    assert (set x | x in Senders(p + [e])) == KeysOf(gs);
    ExistingKeys(gs, e);
    ExistingFaithful(gs, p, e);
    ExistingOrder(gs, p, e);
    assert DistinctKeys(gs') && KeysOf(gs') == (set x | x in Senders(p + [e]));
    assert AllFaithful(gs', p + [e]) && SumCounts(gs') == |p + [e]|;
    assert FirstSeenOrder(gs', p + [e]);
  }

  lemma {:induction false} NewFaithful(gs: seq<SenderGroup>, p: seq<Email>, e: Email)
    requires AllHaveSender(p) && HasSender(e)
    requires AllFaithful(gs, p)
    requires GroupIndex(gs, Sender(e)) == |gs|
    requires Sender(e) !in Senders(p)
    ensures AllHaveSender(p + [e])
    ensures AllFaithful(gs + [NewGroup(e)], p + [e])
  {
    ExtendSenders(p, e);
    var gs' := gs + [NewGroup(e)];
    forall j | 0 <= j < |gs'| ensures Faithful(gs'[j], p + [e]) {
      if j < |gs| {
        OtherGroupFaithful(gs[j], p, e);
      } else {
        NewGroupFaithful(p, e);
      }
    }
  }

  lemma {:induction false} NewOrder(gs: seq<SenderGroup>, p: seq<Email>, e: Email)
    requires AllHaveSender(p) && HasSender(e)
    requires FirstSeenOrder(gs, p)
    requires KeysOf(gs) == (set k | k in Senders(p))
    requires GroupIndex(gs, Sender(e)) == |gs|
    requires Sender(e) !in Senders(p)
    ensures AllHaveSender(p + [e])
    ensures FirstSeenOrder(gs + [NewGroup(e)], p + [e])
  {
    ExtendSenders(p, e);
    var k := Sender(e);
    var gs' := gs + [NewGroup(e)];
    forall j | 0 <= j < |gs| ensures FirstIndex(Senders(p + [e]), gs[j].email) == FirstIndex(Senders(p), gs[j].email) < |p| {
      assert gs[j].email in KeysOf(gs);
      ExtendFirstIndex(Senders(p), k, gs[j].email);
    }
    ExtendFirstIndex(Senders(p), k, k);
    forall j, l | 0 <= j < l < |gs'|
      ensures FirstIndex(Senders(p + [e]), gs'[j].email) < FirstIndex(Senders(p + [e]), gs'[l].email)
    {
      assert gs'[j] == gs[j];
      if l < |gs| {
        assert gs'[l] == gs[l];
      }
    }
  }

  lemma {:induction false} NewKeys(gs: seq<SenderGroup>, e: Email)
    requires HasSender(e)
    requires DistinctKeys(gs)
    requires GroupIndex(gs, Sender(e)) == |gs|
    ensures DistinctKeys(gs + [NewGroup(e)])
    ensures KeysOf(gs + [NewGroup(e)]) == KeysOf(gs) + {Sender(e)}
    ensures SumCounts(gs + [NewGroup(e)]) == SumCounts(gs) + 1
  {
    SumCountsAppend(gs, NewGroup(e));
  }

  /** A message from a new sender opens a group at the end. */
  lemma {:induction false} AddNewGroup(gs: seq<SenderGroup>, p: seq<Email>, e: Email)
    requires AllHaveSender(p) && HasSender(e)
    requires Represents(gs, p)
    requires GroupIndex(gs, Sender(e)) == |gs|
    ensures AllHaveSender(p + [e])
    ensures Represents(AddEmail(gs, e), p + [e])
  {
    ExtendKeySet(p, e);
    KeysOfIndex(gs, Sender(e));
    assert Sender(e) !in Senders(p);
    assert AddEmail(gs, e) == gs + [NewGroup(e)];
    NewKeys(gs, e);
    NewFaithful(gs, p, e);
    NewOrder(gs, p, e);
  }

  /** One `forEach` step keeps the fold's invariant. */
  lemma {:induction false} AddEmailStep(gs: seq<SenderGroup>, p: seq<Email>, e: Email)
    requires AllHaveSender(p) && HasSender(e)
    requires Represents(gs, p)
    ensures AllHaveSender(p + [e])
    ensures Represents(AddEmail(gs, e), p + [e])
  {
    if GroupIndex(gs, Sender(e)) < |gs| {
      AddToExisting(gs, p, e);
    } else {
      AddNewGroup(gs, p, e);
    }
  }

  /** The whole `forEach` builds the groups in first-seen order. */
  lemma {:induction false} CollectRepresents(gs: seq<SenderGroup>, p: seq<Email>, rest: seq<Email>)
    requires AllHaveSender(p) && AllHaveSender(rest)
    requires Represents(gs, p)
    ensures AllHaveSender(p + rest)
    ensures Represents(Collect(gs, rest), p + rest)
    decreases |rest|
  {
    if |rest| == 0 {
      assert p + rest == p;
    } else {
      AddEmailStep(gs, p, rest[0]);
      assert (p + [rest[0]]) + rest[1..] == p + rest;
      CollectRepresents(AddEmail(gs, rest[0]), p + [rest[0]], rest[1..]);
    }
  }

  // ---------------------------------------------------------------------------
  // Proof that the sort is a stable, count-descending permutation

  lemma {:induction false} InsertPermutes(g: SenderGroup, s: seq<SenderGroup>)
    ensures multiset(Insert(g, s)) == multiset{g} + multiset(s)
    ensures SumCounts(Insert(g, s)) == g.count + SumCounts(s)
    decreases |s|
  {
    if |s| > 0 && g.count < s[0].count {
      var u := Insert(g, s[1..]);
      InsertPermutes(g, s[1..]);
      assert Insert(g, s) == [s[0]] + u;
      assert s == [s[0]] + s[1..];
      assert multiset([s[0]] + u) == multiset{s[0]} + multiset(u);
      assert multiset(s) == multiset{s[0]} + multiset(s[1..]);
      assert ([s[0]] + u)[1..] == u;
    } else {
      assert ([g] + s)[1..] == s;
    }
  }

  lemma {:induction false} SortPermutes(gs: seq<SenderGroup>)
    ensures multiset(SortByCount(gs)) == multiset(gs)
    ensures SumCounts(SortByCount(gs)) == SumCounts(gs)
    decreases |gs|
  {
    if |gs| > 0 {
      SortPermutes(gs[1..]);
      InsertPermutes(gs[0], SortByCount(gs[1..]));
      assert gs == [gs[0]] + gs[1..];
    }
  }

  /** Count-descending, ties broken by increasing `rank`. */
  ghost predicate SortedBy(s: seq<SenderGroup>, rank: SenderGroup -> int) {
    forall i, j :: 0 <= i < j < |s| ==>
      s[i].count > s[j].count || (s[i].count == s[j].count && rank(s[i]) < rank(s[j]))
  }

  /** The elements of `Insert(g, s)` are `g` and those of `s`. */
  lemma {:induction false} InsertMembers(g: SenderGroup, s: seq<SenderGroup>, x: SenderGroup)
    requires x in Insert(g, s)
    ensures x == g || x in s
  {
    InsertPermutes(g, s);
    assert x in multiset(Insert(g, s));
  }

  /** `x` goes in front of a sorted sequence it precedes. */
  lemma {:induction false} PrependSorted(x: SenderGroup, u: seq<SenderGroup>, rank: SenderGroup -> int)
    requires SortedBy(u, rank)
    requires forall y :: y in u ==> x.count > y.count || (x.count == y.count && rank(x) < rank(y))
    ensures SortedBy([x] + u, rank)
  {
    var t := [x] + u;
    forall i, j | 0 <= i < j < |t| ensures t[i].count > t[j].count || (t[i].count == t[j].count && rank(t[i]) < rank(t[j])) {
      assert t[j] == u[j - 1];
      if i > 0 {
        assert t[i] == u[i - 1];
      } else {
        assert u[j - 1] in u;
      }
    }
  }

  lemma {:induction false} TailSorted(s: seq<SenderGroup>, rank: SenderGroup -> int)
    requires |s| > 0 && SortedBy(s, rank)
    ensures SortedBy(s[1..], rank)
    ensures forall y :: y in s[1..] ==> s[0].count > y.count || (s[0].count == y.count && rank(s[0]) < rank(y))
  {
    forall i, j | 0 <= i < j < |s[1..]|
      ensures s[1..][i].count > s[1..][j].count || (s[1..][i].count == s[1..][j].count && rank(s[1..][i]) < rank(s[1..][j]))
    {
      assert s[1..][i] == s[i + 1] && s[1..][j] == s[j + 1];
    }
    forall y | y in s[1..] ensures s[0].count > y.count || (s[0].count == y.count && rank(s[0]) < rank(y)) {
      var m :| 0 <= m < |s[1..]| && s[1..][m] == y;
      assert s[m + 1] == y;
    }
  }

  lemma {:induction false} InsertSorted(g: SenderGroup, s: seq<SenderGroup>, rank: SenderGroup -> int)
    requires SortedBy(s, rank)
    requires forall x :: x in s ==> rank(g) < rank(x)
    ensures SortedBy(Insert(g, s), rank)
    decreases |s|
  {
    if |s| == 0 || g.count >= s[0].count {
      forall y | y in s ensures g.count > y.count || (g.count == y.count && rank(g) < rank(y)) {
        if |s| > 0 && y != s[0] {
          TailSorted(s, rank);
        }
      }
      PrependSorted(g, s, rank);
    } else {
      TailSorted(s, rank);
      InsertSorted(g, s[1..], rank);
      var u := Insert(g, s[1..]);
      forall y | y in u ensures s[0].count > y.count || (s[0].count == y.count && rank(s[0]) < rank(y)) {
        InsertMembers(g, s[1..], y);
      }
      PrependSorted(s[0], u, rank);
    }
  }

  lemma {:induction false} SortSorted(gs: seq<SenderGroup>, rank: SenderGroup -> int)
    requires forall i, j :: 0 <= i < j < |gs| ==> rank(gs[i]) < rank(gs[j])
    ensures SortedBy(SortByCount(gs), rank)
    decreases |gs|
  {
    if |gs| > 0 {
      SortSorted(gs[1..], rank);
      SortPermutes(gs[1..]);
      forall x | x in SortByCount(gs[1..]) ensures rank(gs[0]) < rank(x) {
        assert x in multiset(gs[1..]);
        var m :| 0 <= m < |gs[1..]| && gs[1..][m] == x;
        assert gs[m + 1] == x;
      }
      InsertSorted(gs[0], SortByCount(gs[1..]), rank);
    }
  }

  /** Splitting a distinct-keyed sequence into head and tail. */
  lemma {:induction false} DistinctTail(s: seq<SenderGroup>)
    requires |s| > 0 && DistinctKeys(s)
    ensures DistinctKeys(s[1..])
    ensures s[0].email !in KeysOf(s[1..])
    ensures KeysOf(s) == {s[0].email} + KeysOf(s[1..])
  {
    forall i, j | 0 <= i < j < |s[1..]| ensures s[1..][i].email != s[1..][j].email {
      assert s[1..][i] == s[i + 1] && s[1..][j] == s[j + 1];
    }
    forall x | x in s[1..] ensures x.email != s[0].email {
      var m :| 0 <= m < |s[1..]| && s[1..][m] == x;
      assert s[m + 1] == x;
    }
    assert s == [s[0]] + s[1..];
  }

  /** Putting a group with a fresh key in front keeps the keys distinct. */
  lemma {:induction false} PrependDistinct(x: SenderGroup, s: seq<SenderGroup>)
    requires DistinctKeys(s) && x.email !in KeysOf(s)
    ensures DistinctKeys([x] + s)
    ensures KeysOf([x] + s) == KeysOf(s) + {x.email}
  {
    var t := [x] + s;
    forall i, j | 0 <= i < j < |t| ensures t[i].email != t[j].email {
      assert t[j] == s[j - 1];
      if i > 0 {
        assert t[i] == s[i - 1];
      } else {
        assert s[j - 1] in s;
      }
    }
    assert forall y :: y in t <==> y == x || y in s;
  }

  lemma {:induction false} InsertDistinct(g: SenderGroup, s: seq<SenderGroup>)
    requires DistinctKeys(s) && g.email !in KeysOf(s)
    ensures DistinctKeys(Insert(g, s))
    ensures KeysOf(Insert(g, s)) == KeysOf(s) + {g.email}
    decreases |s|
  {
    if |s| == 0 || g.count >= s[0].count {
      PrependDistinct(g, s);
    } else {
      DistinctTail(s);
      InsertDistinct(g, s[1..]);
      assert s[0] in s;
      PrependDistinct(s[0], Insert(g, s[1..]));
    }
  }

  lemma {:induction false} SortKeepsDistinct(gs: seq<SenderGroup>)
    requires DistinctKeys(gs)
    ensures DistinctKeys(SortByCount(gs))
    ensures KeysOf(SortByCount(gs)) == KeysOf(gs)
    decreases |gs|
  {
    if |gs| > 0 {
      DistinctTail(gs);
      SortKeepsDistinct(gs[1..]);
      InsertDistinct(gs[0], SortByCount(gs[1..]));
    }
  }

  // ---------------------------------------------------------------------------
  // The result

  /** `groupBySender` partitions the messages by exact sender address: one group per
      distinct address, holding exactly that address's messages in input order, named
      after its first message, with counts summing to the number of messages, sorted by
      descending count and, among equal counts, by first appearance. */
  lemma {:induction false} GroupBySenderCorrect(es: seq<Email>)
    requires AllHaveSender(es)
    ensures GroupBySender(es).Some?
    ensures Groups(GroupBySender(es).value, es)
  {
    var gs := Collect([], es);
    CollectFromEmpty(es);
    SortPermutes(gs);
    SortKeepsDistinct(gs);
    SortedInFirstSeenOrder(gs, es);
    SortKeepsFaithful(gs, es);
  }

  lemma {:induction false} SortKeepsFaithful(gs: seq<SenderGroup>, es: seq<Email>)
    requires AllHaveSender(es)
    requires forall i :: 0 <= i < |gs| ==> Faithful(gs[i], es)
    ensures forall g :: g in SortByCount(gs) ==> Faithful(g, es)
  {
    SortPermutes(gs);
    forall g | g in SortByCount(gs) ensures Faithful(g, es) {
      assert g in multiset(SortByCount(gs));
      var m :| 0 <= m < |gs| && gs[m] == g;
      assert Faithful(gs[m], es);
    }
  }

  lemma {:induction false} CollectFromEmpty(es: seq<Email>)
    requires AllHaveSender(es)
    ensures Represents(Collect([], es), es)
  {
    var empty: seq<Email> := [];
    assert Senders(empty) == [];
    assert empty + es == es;
    CollectRepresents([], empty, es);
  }

  lemma {:induction false} SortedInFirstSeenOrder(gs: seq<SenderGroup>, es: seq<Email>)
    requires AllHaveSender(es)
    requires Represents(gs, es)
    ensures CountThenFirstSeen(SortByCount(gs), es)
  {
    var ks := Senders(es);
    var rank := (g: SenderGroup) => FirstIndex(ks, g.email);
    assert forall i, j :: 0 <= i < j < |gs| ==> FirstIndex(ks, gs[i].email) < FirstIndex(ks, gs[j].email);
    forall i, j | 0 <= i < j < |gs| ensures rank(gs[i]) < rank(gs[j]) {
      assert FirstIndex(ks, gs[i].email) < FirstIndex(ks, gs[j].email);
    }
    SortSorted(gs, rank);
    assert SortedBy(SortByCount(gs), rank);
  }

  /** Every message is filed under the group of its own (exact) sender address. */
  lemma {:induction false} MessageInOwnGroup(es: seq<Email>, i: nat)
    requires AllHaveSender(es) && i < |es|
    ensures GroupBySender(es).Some?
    ensures exists g :: g in GroupBySender(es).value && g.email == Sender(es[i]) && Summary(es[i]) in g.messages
  {
    GroupBySenderCorrect(es);
    var gs := GroupBySender(es).value;
    assert Senders(es)[i] == Sender(es[i]);
    assert Sender(es[i]) in KeysOf(gs);
    var g :| g in gs && g.email == Sender(es[i]);
    assert Faithful(g, es);
    SentByContains(es, i);
  }

  lemma {:induction false} SentByContains(es: seq<Email>, i: nat)
    requires AllHaveSender(es) && i < |es|
    ensures Summary(es[i]) in SentBy(es, Sender(es[i]))
    decreases |es|
  {
    if i < |es| - 1 {
      SentByContains(es[..|es| - 1], i);
    }
  }
}

=== FILE: jmap.dfy ===
/** The slice of the JMAP core protocol (RFC 8620) and of JMAP for Mail (RFC 8621) that
    the client builds and reads: method invocations with result references, the `/set`
    response fields, and the client's own cached identifiers. */
module Jmap {
  import opened Wrappers

  /** A JMAP `Id` (section 1.2 of RFC 8620). */
  type Id = string

  /** What the client object remembers between calls: the account id learned when
      connecting and the bulk mailbox id learned when resolving the folder. Both start
      out `null`. */
  datatype ClientState = ClientState(accountId: Option<Id>, bulkFolderId: Option<Id>)

  /** The property name JavaScript uses when a value is written as an object key:
      `null` becomes the string "null". */
  function PropertyKey(id: Option<Id>): (k: string)
    ensures id.Some? ==> k == id.value
    ensures id.None? ==> k == "null"
  {
    match id
    case Some(v) => v
    case None => "null"
  }

  /** Two ids land on the same object key exactly when they are equal, or when one is
      `null` and the other is the id "null". */
  lemma {:induction false} PropertyKeysCollide(a: Option<Id>, b: Option<Id>)
    ensures PropertyKey(a) == PropertyKey(b) <==>
      a == b || (a.None? && b == Some("null")) || (b.None? && a == Some("null"))
  {
  }

  /** A result reference (section 3.7 of RFC 8620): argument `#ids` takes its value from
      the response of the call tagged `resultOf`, which must be named `name`, at `path`. */
  datatype ResultReference = ResultReference(resultOf: string, name: string, path: string)

  /** The two `Email/query` filters the client sends. The date is the ISO text the caller
      computed from the clock. */
  datatype EmailFilter =
    | InMailboxAfter(inMailbox: Option<Id>, after: string)
    | FromNotInMailbox(from: string, notInMailbox: Option<Id>)

  /** The object of a `SieveScript/set` create. */
  datatype ScriptCreate = ScriptCreate(name: string, source: string, isActive: bool)

  /** Arguments of every method the client calls. */
  datatype Arguments =
    | MailboxGet(accountId: Option<Id>, properties: seq<string>)
    | EmailQuery(accountId: Option<Id>, filter: EmailFilter)
    | EmailGet(accountId: Option<Id>, ids: ResultReference, properties: seq<string>)
      /** `update`, whose value for each id is the `mailboxIds` of the patch `{mailboxIds: …}` */
    | EmailSet(accountId: Option<Id>, update: map<Id, map<Id, bool>>)
    | SieveScriptGet(accountId: Option<Id>)
      /** `update`, whose value for each id is the patch `{source: …}` */
    | SieveScriptUpdate(accountId: Option<Id>, sourceUpdate: map<Id, string>)
    | SieveScriptCreate(accountId: Option<Id>, create: map<Id, ScriptCreate>)

  /** One `[name, arguments, callId]` triple of `methodCalls`. */
  datatype Invocation = Invocation(name: string, arguments: Arguments, callId: string)

  /** The `methodCalls` of one request. */
  type Batch = seq<Invocation>

  /** The method name that belongs with each kind of arguments. */
  function MethodName(a: Arguments): string {
    match a
    case MailboxGet(_, _) => "Mailbox/get"
    case EmailQuery(_, _) => "Email/query"
    case EmailGet(_, _, _) => "Email/get"
    case EmailSet(_, _) => "Email/set"
    case SieveScriptGet(_) => "SieveScript/get"
    case SieveScriptUpdate(_, _) => "SieveScript/set"
    case SieveScriptCreate(_, _) => "SieveScript/set"
  }

  /** Invocations that change server state. */
  predicate Mutates(inv: Invocation) {
    inv.arguments.EmailSet? || inv.arguments.SieveScriptUpdate? || inv.arguments.SieveScriptCreate?
  }

  /** The JSON Pointer paths the client reads from a method's response. */
  function ResultPaths(name: string): set<string> {
    if name == "Email/query" then {"/ids"} else {}
  }

  /** The reference in invocation `i` points at an earlier invocation of the batch with
      the right tag and name, and at a path that response has. */
  ghost predicate ResolvesEarlier(b: Batch, i: int, r: ResultReference)
    requires 0 <= i <= |b|
  {
    exists j :: 0 <= j < i && b[j].callId == r.resultOf && b[j].name == r.name && r.path in ResultPaths(b[j].name)
  }

  /** Well-formed request: every name matches its arguments, call ids are distinct, and
      every back-reference resolves to an earlier call (section 3.7 of RFC 8620). */
  ghost predicate WellFormedBatch(b: Batch) {
    && (forall i :: 0 <= i < |b| ==> b[i].name == MethodName(b[i].arguments))
    && (forall i, j :: 0 <= i < j < |b| ==> b[i].callId != b[j].callId)
    && (forall i :: 0 <= i < |b| && b[i].arguments.EmailGet? ==> ResolvesEarlier(b, i, b[i].arguments.ids))
  }

  /** Number of state-changing invocations in a sequence of requests. */
  function MutationCount(requests: seq<Batch>): nat {
    if |requests| == 0 then 0
    else MutationCount(requests[..|requests| - 1]) + CountMutations(requests[|requests| - 1])
  }

  function CountMutations(b: Batch): nat {
    if |b| == 0 then 0 else CountMutations(b[..|b| - 1]) + (if Mutates(b[|b| - 1]) then 1 else 0)
  }

  /** A field of a `/set` response (`created`, `updated`, `notCreated`, `notUpdated`) as the
      client sees it: missing, `null`, or an object. Only the object's keys and its
      `JSON.stringify` text are ever read; the text is supplied with the response. */
  datatype SetField = Absent | Null | Object(keys: set<Id>, json: string)

  /** JavaScript truthiness: every object, even `{}`, is truthy. */
  predicate Truthy(f: SetField) {
    f.Object?
  }

  /** `Object.keys(f || {})` */
  function KeysOrEmpty(f: SetField): (ks: set<Id>)
    ensures Truthy(f) ==> ks == f.keys
    ensures !Truthy(f) ==> ks == {}
  {
    if f.Object? then f.keys else {}
  }

  /** `a || b` */
  function Or(a: SetField, b: SetField): (r: SetField)
    ensures Truthy(a) ==> r == a
    ensures !Truthy(a) ==> r == b
    ensures r == a || r == b
    ensures Truthy(r) <==> Truthy(a) || Truthy(b)
  {
    if Truthy(a) then a else b
  }

  /** `'' + JSON.stringify(f)`: `undefined` and `null` print as words. */
  function Stringify(f: SetField): string {
    match f
    case Absent => "undefined"
    case Null => "null"
    case Object(_, json) => json
  }

  /** The response arguments of a `/set` call. A method-level error response has none of
      these properties, which reads as all four `Absent`. */
  datatype SetResponse = SetResponse(created: SetField, updated: SetField, notCreated: SetField, notUpdated: SetField)
}

=== FILE: mailboxes.dfy ===
/** Resolving the bulk folder (`findSubscriptionsFolder`): one `Mailbox/get`, then a
    two-stage search of the returned list, first by the `junk` role of section 2 of
    RFC 8621, then by name ignoring case. */
module Mailboxes {
  import opened Wrappers
  import opened Jmap
  import Text
  import Search

  /** The properties requested of each mailbox. */
  datatype Mailbox = Mailbox(id: Id, name: string, parentId: Option<Id>, role: Option<string>)

  datatype FolderResult = FolderFound(folder: Mailbox) | FolderError(error: string)

  /** The result, the client state afterwards and every request the call issued. */
  datatype FolderRun = FolderRun(result: FolderResult, state: ClientState, requests: seq<Batch>)

  const JunkRole := "junk"

  predicate IsJunk(m: Mailbox) {
    m.role == Some(JunkRole)
  }

  predicate NameMatches(m: Mailbox, folderName: string) {
    Text.EqualsIgnoreCase(m.name, folderName)
  }

  /** A mailbox either stage of the search would accept. */
  predicate IsCandidate(m: Mailbox, folderName: string) {
    IsJunk(m) || NameMatches(m, folderName)
  }

  /** The request: every mailbox with id, name, parentId and role. */
  function MailboxBatch(state: ClientState): (b: Batch)
    ensures |b| == 1 && WellFormedBatch(b) && CountMutations(b) == 0
    ensures b[0].name == "Mailbox/get"
    ensures b[0].arguments == MailboxGet(state.accountId, ["id", "name", "parentId", "role"])
  {
    [Invocation("Mailbox/get", MailboxGet(state.accountId, ["id", "name", "parentId", "role"]), "0")]
  }

  /** The mailbox the client settles on, if any. */
  function SelectBulkFolder(mailboxes: seq<Mailbox>, folderName: string): (r: Option<Mailbox>)
    ensures r.Some? ==> r.value in mailboxes
    ensures r.Some? ==> IsJunk(r.value) || NameMatches(r.value, folderName)
  {
    var byRole := Search.FindIndex(mailboxes, IsJunk);
    if byRole < |mailboxes| then Some(mailboxes[byRole])
    else
      var byName := Search.FindIndex(mailboxes, (m: Mailbox) => NameMatches(m, folderName));
      if byName < |mailboxes| then Some(mailboxes[byName]) else None
  }

  /** The error text for a folder that was not found. */
  function NotFoundMessage(folderName: string): string {
    "Folder \"" + folderName + "\" not found"
  }

  /** `findSubscriptionsFolder(folderName)` given the `Mailbox/get` list, or the message of
      the error thrown while fetching it. Only a match writes `bulkFolderId`. */
  function FindSubscriptionsFolder(state: ClientState, folderName: string, response: Result<seq<Mailbox>, string>): (run: FolderRun)
    ensures run.requests == [MailboxBatch(state)] && MutationCount(run.requests) == 0
    ensures run.state.accountId == state.accountId
    ensures run.result.FolderFound? <==>
      response.Success? && (exists i :: 0 <= i < |response.value| && IsCandidate(response.value[i], folderName))
    ensures run.result.FolderFound? ==>
      response.Success? && SelectBulkFolder(response.value, folderName) == Some(run.result.folder)
    ensures run.result.FolderFound? ==> run.state.bulkFolderId == Some(run.result.folder.id)
    ensures run.result.FolderError? ==> run.state == state
    ensures response.Failure? ==> run.result == FolderError(response.error)
    ensures response.Success? && run.result.FolderError? ==> run.result.error == NotFoundMessage(folderName)
  {
    var requests := [MailboxBatch(state)];
    assert requests[..0] == [];
    match response
    case Failure(message) => FolderRun(FolderError(message), state, requests)
    case Success(mailboxes) =>
      var found := SelectBulkFolder(mailboxes, folderName);
      if found.Some? then
        FolderRun(FolderFound(found.value), state.(bulkFolderId := Some(found.value.id)), requests)
      else
        NoCandidate(mailboxes, folderName);
        FolderRun(FolderError(NotFoundMessage(folderName)), state, requests)
  }

  /** Selection fails only when no mailbox has the role and none has the name. */
  lemma {:induction false} NoCandidate(mailboxes: seq<Mailbox>, folderName: string)
    requires SelectBulkFolder(mailboxes, folderName).None?
    ensures forall i :: 0 <= i < |mailboxes| ==> !IsCandidate(mailboxes[i], folderName)
  {
    var nameMatch := (m: Mailbox) => NameMatches(m, folderName);
    assert Search.FindIndex(mailboxes, IsJunk) == |mailboxes|;
    assert Search.FindIndex(mailboxes, nameMatch) == |mailboxes|;
    forall i | 0 <= i < |mailboxes|
      ensures !IsCandidate(mailboxes[i], folderName)
    {
      assert !nameMatch(mailboxes[i]);
    }
  }

  /** The first mailbox with the `junk` role is chosen, whatever any name says. */
  lemma {:induction false} JunkRoleWins(mailboxes: seq<Mailbox>, folderName: string, i: nat)
    requires i < |mailboxes| && IsJunk(mailboxes[i])
    requires forall j :: 0 <= j < i ==> !IsJunk(mailboxes[j])
    ensures SelectBulkFolder(mailboxes, folderName) == Some(mailboxes[i])
  {
    Search.FindIndexAtMost(mailboxes, IsJunk, i);
  }

  /** Without any `junk` mailbox, the first mailbox whose name equals the wanted one
      ignoring case is chosen. */
  lemma {:induction false} NameFallback(mailboxes: seq<Mailbox>, folderName: string, i: nat)
    requires forall j :: 0 <= j < |mailboxes| ==> !IsJunk(mailboxes[j])
    requires i < |mailboxes| && NameMatches(mailboxes[i], folderName)
    requires forall j :: 0 <= j < i ==> !NameMatches(mailboxes[j], folderName)
    ensures SelectBulkFolder(mailboxes, folderName) == Some(mailboxes[i])
  {
    var nameMatch := (m: Mailbox) => NameMatches(m, folderName);
    Search.FindIndexAtMost(mailboxes, nameMatch, i);
  }
}

=== FILE: move.dfy ===
/** Moving every message of one sender into the bulk mailbox (`moveMessagesFromSender`):
    the lookup request, the `Email/set` update built from its answer, and the counts read
    back from the `/set` response. */
module Move {
  import opened Wrappers
  import opened Jmap
  import opened Text

  /** The two properties fetched for each message to move. */
  datatype EmailRef = EmailRef(id: Id, mailboxIds: map<Id, bool>)

  /** What the method resolves to: `{success: true, moved, errors, message}` or
      `{success: false, error}`. The early return for an empty lookup has no `errors`. */
  datatype MoveResult =
    | Moved(moved: nat, errors: Option<nat>, message: string)
    | MoveFailed(error: string)

  /** The result together with every request the call issued, in order. */
  datatype MoveRun = MoveRun(result: MoveResult, requests: seq<Batch>)

  const NothingToMove := "No messages to move"

  /** The lookup request: messages from the sender outside the bulk mailbox, fetched in
      the same round trip through a back-reference to the query's `/ids`. */
  function LookupBatch(state: ClientState, sender: string): (b: Batch)
    ensures |b| == 2 && WellFormedBatch(b) && CountMutations(b) == 0
    ensures b[0].name == "Email/query"
    ensures b[0].arguments == EmailQuery(state.accountId, FromNotInMailbox(sender, state.bulkFolderId))
    ensures b[1].name == "Email/get"
    ensures b[1].arguments == EmailGet(state.accountId, ResultReference(b[0].callId, "Email/query", "/ids"), ["id", "mailboxIds"])
  {
    var b := [
      Invocation("Email/query", EmailQuery(state.accountId, FromNotInMailbox(sender, state.bulkFolderId)), "0"),
      Invocation("Email/get", EmailGet(state.accountId, ResultReference("0", "Email/query", "/ids"), ["id", "mailboxIds"]), "1")
    ];
    assert b[1].arguments.EmailGet? ==> ResolvesEarlier(b, 1, b[1].arguments.ids) by {
      assert b[0].callId == "0" && b[0].name == "Email/query";
    }
    assert CountMutations(b[..1]) == 0 by { assert b[..1][..0] == []; }
    b
  }

  /** The new `mailboxIds` of one message: a copy with every key deleted, then the bulk
      mailbox set to `true`. Whatever the message was in before, it ends up in exactly the
      bulk mailbox. */
  function Retarget(mailboxIds: map<Id, bool>, key: Id): (r: map<Id, bool>)
    ensures r.Keys == {key} && r[key]
  {
    (mailboxIds - mailboxIds.Keys)[key := true]
  }

  /** The `update` argument: one patch per fetched id (a repeated id is written twice with
      the same patch). */
  function UpdatesFor(es: seq<EmailRef>, key: Id): (u: map<Id, map<Id, bool>>)
    ensures u.Keys == set i | 0 <= i < |es| :: es[i].id
    ensures forall id :: id in u ==> u[id] == map[key := true]
  {
    if |es| == 0 then map[]
    else
      var last := es[|es| - 1];
      UpdatesFor(es[..|es| - 1], key)[last.id := Retarget(last.mailboxIds, key)]
  }

  function SetBatch(state: ClientState, update: map<Id, map<Id, bool>>): (b: Batch)
    ensures |b| == 1 && WellFormedBatch(b) && CountMutations(b) == 1
    ensures b[0].name == "Email/set" && b[0].arguments == EmailSet(state.accountId, update)
  {
    var b := [Invocation("Email/set", EmailSet(state.accountId, update), "0")];
    assert b[..0] == [];
    b
  }

  /** `Moved ${moved} messages`, plus ` (${failed} failed)` when some failed. */
  function MovedMessage(moved: nat, failed: nat): string {
    "Moved " + NatToString(moved) + " messages" + (if failed > 0 then " (" + NatToString(failed) + " failed)" else "")
  }

  /** `moveMessagesFromSender(sender)` given the lookup's `Email/get` list and the
      `Email/set` response (each, or the message of what was thrown instead). */
  function MoveMessagesFromSender(state: ClientState, sender: string,
                                  lookup: Result<seq<EmailRef>, string>,
                                  response: Result<SetResponse, string>): (run: MoveRun)
    ensures |run.requests| >= 1 && run.requests[0] == LookupBatch(state, sender)
    ensures lookup.Failure? ==> run.result == MoveFailed(lookup.error) && |run.requests| == 1
    ensures lookup.Success? && |lookup.value| == 0 ==>
      run.result == Moved(0, None, NothingToMove) && |run.requests| == 1
    ensures MutationCount(run.requests) == (if lookup.Success? && |lookup.value| > 0 then 1 else 0)
    ensures lookup.Success? && |lookup.value| > 0 ==>
      && |run.requests| == 2 && |run.requests[1]| == 1
      && run.requests[1][0].arguments.EmailSet?
      && run.requests[1] == SetBatch(state, run.requests[1][0].arguments.update)
      && run.requests[1][0].arguments.update.Keys == (set i | 0 <= i < |lookup.value| :: lookup.value[i].id)
      && (forall id :: id in run.requests[1][0].arguments.update ==>
            run.requests[1][0].arguments.update[id] == map[PropertyKey(state.bulkFolderId) := true])
    ensures lookup.Success? && |lookup.value| > 0 && response.Failure? ==> run.result == MoveFailed(response.error)
    ensures lookup.Success? && |lookup.value| > 0 && response.Success? ==>
      var moved := |KeysOrEmpty(response.value.updated)|;
      var failed := |KeysOrEmpty(response.value.notUpdated)|;
      run.result == Moved(moved, Some(failed), MovedMessage(moved, failed))
  {
    var lookupBatch := LookupBatch(state, sender);
    assert MutationCount([lookupBatch]) == 0 by { assert [lookupBatch][..0] == []; }
    match lookup
    case Failure(message) => MoveRun(MoveFailed(message), [lookupBatch])
    case Success(es) =>
      if |es| == 0 then MoveRun(Moved(0, None, NothingToMove), [lookupBatch])
      else
        var setBatch := SetBatch(state, UpdatesFor(es, PropertyKey(state.bulkFolderId)));
        var requests := [lookupBatch, setBatch];
        assert requests[..1] == [lookupBatch];
        match response
        case Failure(message) => MoveRun(MoveFailed(message), requests)
        case Success(r) =>
          var moved := |KeysOrEmpty(r.updated)|;
          var failed := |KeysOrEmpty(r.notUpdated)|;
          MoveRun(Moved(moved, Some(failed), MovedMessage(moved, failed)), requests)
  }

  // ---------------------------------------------------------------------------
  // Properties

  /** The server's view after applying the update: each fetched message's `mailboxIds`
      replaced by its patch. */
  function Apply(es: seq<EmailRef>, update: map<Id, map<Id, bool>>): seq<EmailRef> {
    seq(|es|, i requires 0 <= i < |es| =>
      if es[i].id in update then es[i].(mailboxIds := update[es[i].id]) else es[i])
  }

  /** Applying the plan leaves every fetched message in the bulk mailbox and in no other. */
  lemma {:induction false} PlanMovesAllToBulk(es: seq<EmailRef>, key: Id)
    ensures forall i :: 0 <= i < |es| ==> Apply(es, UpdatesFor(es, key))[i].mailboxIds == map[key := true]
  {
    var u := UpdatesFor(es, key);
    forall i | 0 <= i < |es| ensures Apply(es, u)[i].mailboxIds == map[key := true] {
      assert es[i].id in u.Keys;
    }
  }

  /** Retargeting is idempotent: a message already moved stays where it is. */
  lemma {:induction false} RetargetIdempotent(mailboxIds: map<Id, bool>, key: Id)
    ensures Retarget(Retarget(mailboxIds, key), key) == Retarget(mailboxIds, key)
    ensures Retarget(mailboxIds, key) == map[key := true]
  {
  }

  /** The summary reads back: it starts `Moved <moved> messages`, and carries the
      ` (<failed> failed)` suffix exactly when `failed > 0`. */
  lemma {:induction false} MovedMessageReadsBack(moved: nat, failed: nat)
    ensures var t := MovedMessage(moved, failed);
            var n := |NatToString(moved)|;
            && |t| >= 6 + n + 9
            && t[..6] == "Moved "
            && t[6..6 + n] == NatToString(moved)
            && DigitsValue(t[6..6 + n]) == moved
            && t[6 + n..6 + n + 9] == " messages"
            && (failed > 0 <==> |t| > 6 + n + 9)
  {
    var t := MovedMessage(moved, failed);
    var d := NatToString(moved);
    var n := |d|;
    var head := "Moved " + d + " messages";
    assert t[..|head|] == head;
    assert head[6..6 + n] == d;
    assert t[6..6 + n] == d;
    NatToStringRoundTrip(moved);
  }

  /** The failure count reads back from the suffix. */
  lemma {:induction false} FailedCountReadsBack(moved: nat, failed: nat)
    requires failed > 0
    ensures var t := MovedMessage(moved, failed);
            var n := |NatToString(moved)| + 15;
            && |t| == n + |NatToString(failed)| + 10
            && t[n..n + 2] == " ("
            && DigitsValue(t[n + 2..|t| - 8]) == failed
            && t[|t| - 8..] == " failed)"
  {
    var t := MovedMessage(moved, failed);
    var d := NatToString(failed);
    var n := |NatToString(moved)| + 15;
    var tail := " (" + d + " failed)";
    assert t == ("Moved " + NatToString(moved) + " messages") + tail;
    assert t[n..] == tail;
    assert t[n + 2..|t| - 8] == d;
    NatToStringRoundTrip(failed);
  }
}

=== FILE: search.dfy ===
/** `Array.prototype.find`, as an index: the position of the first element that satisfies
    the predicate, or the length of the sequence when none does. */
module Search {

  function FindIndex<T>(s: seq<T>, p: T -> bool): (i: nat)
    ensures i <= |s|
    ensures i < |s| ==> p(s[i])
    ensures forall j :: 0 <= j < i ==> !p(s[j])
  {
    if |s| == 0 then 0
    else if p(s[0]) then 0
    else 1 + FindIndex(s[1..], p)
  }

  /** A witness bounds the first match: `find` never skips a matching element. */
  lemma {:induction false} FindIndexAtMost<T>(s: seq<T>, p: T -> bool, j: nat)
    requires j < |s| && p(s[j])
    ensures FindIndex(s, p) <= j
  {
  }
}

=== FILE: sieve.dfy ===
/** Filtering rule creation (`createRule`): the Sieve script text (RFC 5228) built for one
    sender, the choice between updating the active script and creating a new one through
    `SieveScript/set`, and the mapping of failures to the message shown to the user. */
module Sieve {
  import opened Wrappers
  import opened Jmap
  import opened Text
  import Search

  /** A `SieveScript` record as listed by `SieveScript/get`. A `null` `id` or `blobId` is
      modelled as the empty string: both are falsy, which is all the client tests. */
  datatype SieveScript = SieveScript(id: Id, name: string, blobId: string, isActive: bool)

  /** The placeholder that stands in for the active script's content, which is never
      fetched. */
  const ExistingHeader := "# Existing rules would be here\n\n"
  const GeneratedHeader := "# Auto-generated rules by Fastmail Bulk Manager\n\n"
  const DefaultScriptName := "bulk-manager-rules"
  /** The creation id of a new script. */
  const CreationId := "new-rule"
  const ManualSetupMessage := "Sieve script management not available. You can manually create a rule in Fastmail Settings \U{2192} Rules."

  datatype RuleResult = RuleCreated(message: string) | RuleFailed(error: string)

  /** The result together with every request the call issued, in order. */
  datatype RuleRun = RuleRun(result: RuleResult, requests: seq<Batch>)

  /** The rule for one sender: an `address :is "from"` test (section 5.1 of RFC 5228)
      around `fileinto "Bulk"` (section 4.1) and `stop` (section 3.3). The address is
      pasted between the quotes as it is, without the escaping of section 2.4.2. */
  function RuleBlock(sender: string): string {
    RuleHead(sender) + AddressTest(sender) + RuleBody
  }

  /** The comment naming the sender and the start of the `if`. */
  function RuleHead(sender: string): string {
    "# Rule for " + sender + "\n" + "if "
  }

  /** The test of the rule, with the address between the quotes. */
  function AddressTest(sender: string): string {
    TestLead + sender + "\""
  }

  const TestLead := "address :is \"from\" \""
  const FileInto := "fileinto \"Bulk\";"
  const Stop := "stop;"
  /** The block of the `if`, indented by four spaces, and the blank line after it. */
  const RuleBody := " {\n" + "    " + FileInto + "\n" + "    " + Stop + "\n}\n\n"

  /** `list.find(script => script.isActive)` */
  function ActiveScript(scripts: seq<SieveScript>): (r: Option<SieveScript>)
    ensures r.None? <==> forall i :: 0 <= i < |scripts| ==> !scripts[i].isActive
    ensures r.Some? ==> exists i :: 0 <= i < |scripts| && scripts[i] == r.value && r.value.isActive &&
                                    forall j :: 0 <= j < i ==> !scripts[j].isActive
  {
    var i := Search.FindIndex(scripts, (s: SieveScript) => s.isActive);
    if i < |scripts| then Some(scripts[i]) else None
  }

  /** The placeholder header when the active script has a (truthy) blob, the generated
      header otherwise. */
  function Header(active: Option<SieveScript>): (h: string)
    ensures h == ExistingHeader <==> active.Some? && active.value.blobId != ""
    ensures h != ExistingHeader ==> h == GeneratedHeader
  {
    if active.Some? && active.value.blobId != "" then ExistingHeader else GeneratedHeader
  }

  function ScriptSource(active: Option<SieveScript>, sender: string): string {
    Header(active) + RuleBlock(sender)
  }

  function GetBatch(state: ClientState): (b: Batch)
    ensures |b| == 1 && WellFormedBatch(b) && CountMutations(b) == 0
    ensures b[0].name == "SieveScript/get" && b[0].arguments == SieveScriptGet(state.accountId)
  {
    var b := [Invocation("SieveScript/get", SieveScriptGet(state.accountId), "0")];
    assert b[..0] == [];
    b
  }

  /** The `SieveScript/set` call: an update of the active script's `source` when that
      script has a (truthy) id, otherwise the creation of an active script named after the
      active script, if any, or `bulk-manager-rules`. */
  function SetCall(state: ClientState, active: Option<SieveScript>, source: string): (inv: Invocation)
    ensures inv.name == MethodName(inv.arguments) && Mutates(inv)
    ensures inv.name == "SieveScript/set" && inv.arguments.accountId == state.accountId
    ensures inv.arguments.SieveScriptUpdate? <==> active.Some? && active.value.id != ""
    ensures inv.arguments.SieveScriptUpdate? ==> inv.arguments.sourceUpdate == map[active.value.id := source]
    ensures inv.arguments.SieveScriptCreate? ==>
      && inv.arguments.create.Keys == {CreationId}
      && inv.arguments.create[CreationId].source == source
      && inv.arguments.create[CreationId].isActive
      && inv.arguments.create[CreationId].name == (if active.Some? then active.value.name else DefaultScriptName)
  {
    if active.Some? && active.value.id != "" then
      Invocation("SieveScript/set", SieveScriptUpdate(state.accountId, map[active.value.id := source]), "0")
    else
      var name := if active.Some? then active.value.name else DefaultScriptName;
      Invocation("SieveScript/set", SieveScriptCreate(state.accountId, map[CreationId := ScriptCreate(name, source, true)]), "0")
  }

  /** The `catch` block: a message mentioning `SieveScript` becomes the manual-setup
      advice, any other passes through. */
  function MapError(message: string): (r: string)
    ensures Contains(message, "SieveScript") ==> r == ManualSetupMessage
    ensures !Contains(message, "SieveScript") ==> r == message
  {
    if Contains(message, "SieveScript") then ManualSetupMessage else message
  }

  /** Mapping an error twice is mapping it once: the manual-setup advice maps to itself,
      whether or not it mentions `SieveScript`. */
  lemma {:induction false} MapErrorIdempotent(message: string)
    ensures MapError(MapError(message)) == MapError(message)
    ensures MapError(ManualSetupMessage) == ManualSetupMessage
  {
  }

  /** The message of the error thrown when the `/set` response reports neither a created
      nor an updated script. */
  function RejectionMessage(r: SetResponse): string {
    "Failed to create rule: " + Stringify(Or(r.notCreated, r.notUpdated))
  }

  function CreatedMessage(sender: string): string {
    "Created rule to move messages from " + sender + " to bulk folder"
  }

  /** `createRule(sender)` given the `SieveScript/get` list and the `SieveScript/set`
      response (each, or the message of what was thrown instead). */
  function CreateRule(state: ClientState, sender: string,
                      scripts: Result<seq<SieveScript>, string>,
                      response: Result<SetResponse, string>): (run: RuleRun)
    ensures |run.requests| >= 1 && run.requests[0] == GetBatch(state)
    ensures MutationCount(run.requests) == (if scripts.Success? then 1 else 0)
    ensures scripts.Failure? ==> |run.requests| == 1 && run.result == RuleFailed(MapError(scripts.error))
    ensures scripts.Success? ==>
      var active := ActiveScript(scripts.value);
      && |run.requests| == 2 && |run.requests[1]| == 1
      && run.requests[1][0] == SetCall(state, active, Header(active) + RuleBlock(sender))
    ensures run.result.RuleCreated? <==>
      scripts.Success? && response.Success? && (Truthy(response.value.created) || Truthy(response.value.updated))
    ensures run.result.RuleCreated? ==> run.result.message == CreatedMessage(sender)
    ensures scripts.Success? && response.Failure? ==> run.result == RuleFailed(MapError(response.error))
    ensures scripts.Success? && response.Success? && run.result.RuleFailed? ==>
      run.result.error == MapError(RejectionMessage(response.value))
    ensures run.result.RuleFailed? ==> run.result.error == ManualSetupMessage || !Contains(run.result.error, "SieveScript")
  {
    var getBatch := GetBatch(state);
    assert MutationCount([getBatch]) == 0 by { assert [getBatch][..0] == []; }
    match scripts
    case Failure(message) => RuleRun(RuleFailed(MapError(message)), [getBatch])
    case Success(list) =>
      var active := ActiveScript(list);
      var setBatch := [SetCall(state, active, ScriptSource(active, sender))];
      assert CountMutations(setBatch) == 1 by { assert setBatch[..0] == []; }
      var requests := [getBatch, setBatch];
      assert requests[..1] == [getBatch];
      match response
      case Failure(message) => RuleRun(RuleFailed(MapError(message)), requests)
      case Success(r) =>
        if Truthy(r.created) || Truthy(r.updated) then RuleRun(RuleCreated(CreatedMessage(sender)), requests)
        else RuleRun(RuleFailed(MapError(RejectionMessage(r))), requests)
  }

  // ---------------------------------------------------------------------------
  // What the script says

  /** The rule files the sender's mail into `Bulk`, then stops, under a test that names
      the sender. */
  lemma {:induction false} SourceShape(active: Option<SieveScript>, sender: string)
    ensures Contains(ScriptSource(active, sender), AddressTest(sender))
    ensures Contains(ScriptSource(active, sender), FileInto)
    ensures Contains(ScriptSource(active, sender), Stop)
  {
    var h := Header(active);
    Regroup(h, RuleHead(sender), AddressTest(sender), RuleBody);
    ContainsInfix(h + RuleHead(sender), AddressTest(sender), RuleBody);
    BodyShape();
    ContainsWithin(h + RuleHead(sender) + AddressTest(sender), RuleBody, "", FileInto);
    ContainsWithin(h + RuleHead(sender) + AddressTest(sender), RuleBody, "", Stop);
    assert h + RuleHead(sender) + AddressTest(sender) + RuleBody + "" == ScriptSource(active, sender);
  }

  /** The block of the `if` files into `Bulk` and stops. */
  lemma {:induction false} BodyShape()
    ensures Contains(RuleBody, FileInto) && Contains(RuleBody, Stop)
  {
    Split7(" {\n", "    ", FileInto, "\n", "    ", Stop, "\n}\n\n");
    ContainsInfix(" {\n" + "    ", FileInto, "\n" + "    " + Stop + "\n}\n\n");
    ContainsInfix(" {\n" + "    " + FileInto + "\n" + "    ", Stop, "\n}\n\n");
  }

  lemma {:induction false} Split7(a: string, b: string, c: string, d: string, e: string, f: string, g: string)
    ensures a + b + c + d + e + f + g == (a + b) + c + (d + e + f + g)
    ensures a + b + c + d + e + f + g == (a + b + c + d + e) + f + g
  {
  }

  /** `h + (r + t + b)` regrouped. */
  lemma {:induction false} Regroup(h: string, r: string, t: string, b: string)
    ensures h + (r + t + b) == (h + r) + t + b
  {
  }

  // ---------------------------------------------------------------------------
  // Quoted strings (section 2.4.2 of RFC 5228)

  /** Reads a quoted string whose opening quote has been consumed: up to the first
      unescaped `"`, where a backslash takes the next character literally. Returns the
      content and the text after the closing quote. */
  function ReadQuoted(s: string): (r: Option<(string, string)>)
    decreases |s|
  {
    if |s| == 0 then None
    else if s[0] == '"' then Some(("", s[1..]))
    else if s[0] == '\\' then
      if |s| < 2 then None
      else match ReadQuoted(s[2..])
        case None => None
        case Some((content, rest)) => Some(([s[1]] + content, rest))
    else match ReadQuoted(s[1..])
      case None => None
      case Some((content, rest)) => Some(([s[0]] + content, rest))
  }

  /** The escaping the template omits: a backslash before every `"` and `\`. */
  function Quote(t: string): (q: string)
    ensures |q| >= |t|
  {
    if |t| == 0 then ""
    else (if t[0] == '"' || t[0] == '\\' then ['\\', t[0]] else [t[0]]) + Quote(t[1..])
  }

  predicate NeedsNoEscape(t: string) {
    forall i :: 0 <= i < |t| ==> t[i] != '"' && t[i] != '\\'
  }

  /** Escaped text reads back as itself, whatever it contains. */
  lemma {:induction false} QuoteRoundTrip(t: string, rest: string)
    ensures ReadQuoted(Quote(t) + "\"" + rest) == Some((t, rest))
    decreases |t|
  {
    if |t| > 0 {
      QuoteRoundTrip(t[1..], rest);
      var tail := Quote(t[1..]) + "\"" + rest;
      if t[0] == '"' || t[0] == '\\' {
        assert Quote(t) + "\"" + rest == ['\\', t[0]] + tail;
        assert (['\\', t[0]] + tail)[2..] == tail;
      } else {
        assert Quote(t) + "\"" + rest == [t[0]] + tail;
        assert ([t[0]] + tail)[1..] == tail;
      }
      assert [t[0]] + t[1..] == t;
    } else {
      assert Quote(t) + "\"" + rest == "\"" + rest;
    }
  }

  /** Text with no `"` or `\` needs no escaping, so pasting it raw is harmless. */
  lemma {:induction false} PlainTextQuotesAsItself(t: string)
    requires NeedsNoEscape(t)
    ensures Quote(t) == t
    decreases |t|
  {
    if |t| > 0 {
      PlainTextQuotesAsItself(t[1..]);
      assert [t[0]] + t[1..] == t;
    }
  }

  /** Where the address string of the test starts inside the script. */
  function AddressStart(active: Option<SieveScript>, sender: string): nat {
    |Header(active) + RuleHead(sender) + TestLead|
  }

  /** The script from the address onwards. */
  lemma {:induction false} FromAddress(active: Option<SieveScript>, sender: string)
    ensures AddressStart(active, sender) <= |ScriptSource(active, sender)|
    ensures ScriptSource(active, sender)[AddressStart(active, sender)..] == sender + "\"" + RuleBody
  {
    SplitAt(Header(active), RuleHead(sender), TestLead, sender, "\"", RuleBody);
  }

  lemma {:induction false} SplitAt(h: string, r: string, t: string, s: string, q: string, b: string)
    ensures h + (r + (t + s + q) + b) == (h + r + t) + (s + q + b)
    ensures (h + (r + (t + s + q) + b))[|h + r + t|..] == s + q + b
  {
    assert h + (r + (t + s + q) + b) == (h + r + t) + (s + q + b);
  }

  lemma {:induction false} Reassociate(x: string, q: string, y: string, b: string)
    ensures (x + q + y) + q + b == x + q + (y + q + b)
  {
  }

  /** For an address without `"` or `\`, the test's string reads back as the address. */
  lemma {:induction false} AddressReadsBack(active: Option<SieveScript>, sender: string)
    requires NeedsNoEscape(sender)
    ensures AddressStart(active, sender) <= |ScriptSource(active, sender)|
    ensures ReadQuoted(ScriptSource(active, sender)[AddressStart(active, sender)..]) == Some((sender, RuleBody))
  {
    FromAddress(active, sender);
    PlainTextQuotesAsItself(sender);
    QuoteRoundTrip(sender, RuleBody);
  }

  /** An address with a `"` in it ends the string at that quote: the rule tests only the
      part before it, and the rest of the address is left over as script text. */
  lemma {:induction false} QuoteInAddressTruncates(active: Option<SieveScript>, x: string, y: string)
    requires NeedsNoEscape(x)
    ensures var sender := x + "\"" + y;
            && AddressStart(active, sender) <= |ScriptSource(active, sender)|
            && ReadQuoted(ScriptSource(active, sender)[AddressStart(active, sender)..]) == Some((x, y + "\"" + RuleBody))
  {
    var sender := x + "\"" + y;
    FromAddress(active, sender);
    Reassociate(x, "\"", y, RuleBody);
    PlainTextQuotesAsItself(x);
    QuoteRoundTrip(x, y + "\"" + RuleBody);
  }

  // ---------------------------------------------------------------------------
  // What the call does to the account's scripts

  /** The script text depends on the active script only through whether its blob id is
      truthy: the actual content is never read. */
  lemma {:induction false} SourceIgnoresBlob(a: SieveScript, b: SieveScript, sender: string)
    requires (a.blobId != "") == (b.blobId != "")
    ensures ScriptSource(Some(a), sender) == ScriptSource(Some(b), sender)
  {
  }

  /** On an account without scripts the first rule creates an active script holding it;
      once that script is listed (with an id and a blob), the next rule overwrites its
      source with the placeholder and the new rule only, so the first rule is gone. */
  lemma {:induction false} SecondRuleReplacesFirst(state: ClientState, first: string, second: string,
                                                   id: Id, blobId: string,
                                                   r1: Result<SetResponse, string>, r2: Result<SetResponse, string>)
    requires id != "" && blobId != ""
    ensures var c := CreateRule(state, first, Success([]), r1).requests[1][0].arguments;
            && c.SieveScriptCreate?
            && c.create[CreationId] == ScriptCreate(DefaultScriptName, GeneratedHeader + RuleBlock(first), true)
    ensures var u := CreateRule(state, second, Success([SieveScript(id, DefaultScriptName, blobId, true)]), r2).requests[1][0].arguments;
            && u.SieveScriptUpdate?
            && u.sourceUpdate == map[id := ExistingHeader + RuleBlock(second)]
  {
    var script := SieveScript(id, DefaultScriptName, blobId, true);
    var s := [script];
    assert ActiveScript(s) == Some(script) by {
      assert Search.FindIndex(s, (x: SieveScript) => x.isActive) == 0;
    }
  }
}

=== FILE: text.dfy ===
/** String helpers the client relies on: ASCII case folding (standing in for
    `String.prototype.toLowerCase`), substring search (`String.prototype.includes`)
    and decimal rendering of counts inside template literals. */
module Text {

  /** Lower-cases one character; only `A`..`Z` are mapped. */
  function LowerChar(c: char): (r: char)
    ensures 'A' <= c <= 'Z' ==> r as int == c as int + 32
    ensures !('A' <= c <= 'Z') ==> r == c
    ensures !('A' <= r <= 'Z')
  {
    if 'A' <= c <= 'Z' then (c as int + 32) as char else c
  }

  /** ASCII approximation of `toLowerCase`. */
  function Lower(s: string): (r: string)
    ensures |r| == |s|
    ensures forall i :: 0 <= i < |s| ==> r[i] == LowerChar(s[i])
  {
    if |s| == 0 then "" else [LowerChar(s[0])] + Lower(s[1..])
  }

  /** `a.toLowerCase() === b.toLowerCase()` */
  predicate EqualsIgnoreCase(a: string, b: string) {
    Lower(a) == Lower(b)
  }

  /** Two strings are equal ignoring case exactly when they agree character by character
      after folding. */
  lemma {:induction false} EqualsIgnoreCasePointwise(a: string, b: string)
    ensures EqualsIgnoreCase(a, b) <==>
      |a| == |b| && forall i :: 0 <= i < |a| ==> LowerChar(a[i]) == LowerChar(b[i])
  {
    if |a| == |b| && forall i :: 0 <= i < |a| ==> LowerChar(a[i]) == LowerChar(b[i]) {
      assert forall i :: 0 <= i < |a| ==> Lower(a)[i] == Lower(b)[i];
    }
  }

  /** `p` occurs in `s` starting at index `i`. */
  ghost predicate OccursAt(s: string, p: string, i: int) {
    0 <= i && i + |p| <= |s| && s[i..i + |p|] == p
  }

  /** `s.includes(p)` */
  function Contains(s: string, p: string): (b: bool)
    decreases |s|
  {
    if |p| > |s| then false
    else if s[..|p|] == p then true
    else Contains(s[1..], p)
  }

  /** `Contains` holds exactly when the pattern occurs at some index. */
  lemma {:induction false} ContainsIffOccurs(s: string, p: string)
    ensures Contains(s, p) <==> exists i :: OccursAt(s, p, i)
    decreases |s|
  {
    if |p| > |s| {
      assert forall i :: !OccursAt(s, p, i);
    } else if s[..|p|] == p {
      assert OccursAt(s, p, 0);
    } else {
      ContainsIffOccurs(s[1..], p);
      if Contains(s[1..], p) {
        var i :| OccursAt(s[1..], p, i);
        assert s[i + 1..i + 1 + |p|] == s[1..][i..i + |p|];
        assert OccursAt(s, p, i + 1);
      } else {
        forall i | OccursAt(s, p, i)
          ensures false
        {
          if i > 0 {
            assert s[1..][i - 1..i - 1 + |p|] == s[i..i + |p|];
            assert OccursAt(s[1..], p, i - 1);
          }
        }
      }
    }
  }

  /** A string occurs in any concatenation that has it as a part. */
  lemma {:induction false} ContainsInfix(a: string, p: string, b: string)
    ensures Contains(a + p + b, p)
  {
    var s := a + p + b;
    assert s[|a|..|a| + |p|] == p;
    assert OccursAt(s, p, |a|);
    ContainsIffOccurs(s, p);
  }

  /** Text that occurs in `x` occurs in anything built around `x`. */
  lemma {:induction false} ContainsWithin(a: string, x: string, b: string, p: string)
    requires Contains(x, p)
    ensures Contains(a + x + b, p)
  {
    ContainsIffOccurs(x, p);
    var i :| OccursAt(x, p, i);
    var s := a + x + b;
    assert s[|a| + i..|a| + i + |p|] == x[i..i + |p|];
    assert OccursAt(s, p, |a| + i);
    ContainsIffOccurs(s, p);
  }

  /** The digit character for `d`. */
  function DigitChar(d: nat): (c: char)
    requires d < 10
    ensures '0' <= c <= '9'
    ensures c as int - '0' as int == d
  {
    ('0' as int + d) as char
  }

  /** `${n}` for a non-negative integer: shortest decimal, no sign, no leading zero. */
  function NatToString(n: nat): (s: string)
    ensures |s| >= 1
    ensures forall i :: 0 <= i < |s| ==> '0' <= s[i] <= '9'
    ensures n > 0 ==> s[0] != '0'
    decreases n
  {
    if n < 10 then [DigitChar(n)] else NatToString(n / 10) + [DigitChar(n % 10)]
  }

  /** Reads a string of decimal digits back as a number (the partner of `NatToString`). */
  function DigitsValue(s: string): nat
    requires forall i :: 0 <= i < |s| ==> '0' <= s[i] <= '9'
  {
    if |s| == 0 then 0
    else DigitsValue(s[..|s| - 1]) * 10 + (s[|s| - 1] as int - '0' as int)
  }

  /** Rendering a count and reading it back gives the count. */
  lemma {:induction false} NatToStringRoundTrip(n: nat)
    ensures DigitsValue(NatToString(n)) == n
    decreases n
  {
    if n >= 10 {
      NatToStringRoundTrip(n / 10);
      var s := NatToString(n);
      assert s[..|s| - 1] == NatToString(n / 10);
    }
  }
}

=== FILE: wrappers.dfy ===
/** Failure-compatible wrappers shared by the whole model. A JavaScript value that may be
    `null`/`undefined` becomes an `Option`; a call that may throw becomes a `Result` whose
    error is the thrown error's `message`. */
module Wrappers {

  datatype Option<+T> = None | Some(value: T) {
    /** The value, or `default` when absent (JavaScript's `x || default` on a number). */
    function GetOr(default: T): T {
      match this
      case Some(v) => v
      case None => default
    }
  }

  datatype Result<+R, +E> = Success(value: R) | Failure(error: E)
}
